=== FILE: README.md ===
# crane-autoscaler: the decision-and-reconcile core in Dafny

crane-autoscaler is a Kubernetes controller. For every CranePodAutoscaler it keeps one
HorizontalPodAutoscaler (HPA) and one VerticalPodAutoscaler (VPA) for the same workload.
Exactly one of the two is active at a time. The other stays present but inert: a passive
VPA has update mode `Off`, and a passive HPA has `maxReplicas` pinned to its `minReplicas`.
The choice is a two-state machine with hysteresis. Its only memory is the reason of the
parent's `ScalingDecision` condition.

This project models one reconciliation pass and its parts as pure Dafny functions over
immutable values:

| file | module | models |
|---|---|---|
| `optional.dfy` | `Optional` | nil pointers and unset fields |
| `ratios.dfy` | `Ratios` | exact rationals in place of the float32 utilization ratios |
| `kube.dfy` | `Kube` | the VPA, HPA, metadata and condition slices the controller touches; conditions as a map keyed by type with upsert |
| `crane_api.dfy` | `CraneApi` | the CranePodAutoscaler as the controller uses it (HPA spec, VPA spec, threshold percent, conditions) |
| `generators.dfy` | `Generators` | the enabled and disabled VPA and HPA templates |
| `validation.dfy` | `Validation` | `Validate` and `equalTargetRefs` |
| `utilization.dfy` | `Utilization` | `getBiggestContainerResourceUtilization` |
| `decision.dfy` | `Decision` | the scaling-decision state machine |
| `object_store.dfy` | `ObjectStore` | the store at the request's namespace and name, and the fallible steps of a pass |
| `children.dfy` | `Children` | `getOrCreateVPA/HPA`, `NewVPA/HPAForAutoscaler`, `reconcileVPA/HPA` |
| `controller.dfy` | `Controller` | `Reconcile` and `handleAutoscalerDefinitionError` |
| `passes.dfy` | `Passes` | properties of whole passes and of passes in sequence |

The store has one slot per kind (parent, VPA, HPA). Every read, write and owner-reference
step can fail. Which steps fail is a parameter of the pass: a set of `Step` values, since
each step happens at most once per pass. A pass returns three things: the new store, the
result (`Ok`, a failed step, or a validation error) and the list of writes that took effect.
Lemmas about idempotence count writes in that list.

Facts about the code that the model follows:

- `Validate` compares only the Name, Kind and APIVersion of the two target references.
  It does not check that `minReplicas` is set or that the threshold is in range, although
  the comment at api/v1alpha1/autoscaler_generators.go:49-50 says validation rejects a
  missing `minReplicas`.
- The evaluator does not skip a zero upper bound: the division is done regardless.
  Here every upper bound must be positive (see Left out).
- The new decision is persisted only by the final status write. If a child sync fails, the
  decision is not recorded, even though the other child may already have been switched.
- The controller test at internal/controller/cranepodautoscaler_controller_test.go:48-97 expects a
  pass without error over a parent whose HPA scale target reference is empty while its VPA
  targets a Deployment. The code rejects that parent in validation and returns the error
  (`Passes.EmptyScaleTargetIsRejected`).
- The webhook test at api/v1alpha1/cranepodautoscaler_webhook_test.go:60-85 admits a parent with
  no VPA update policy. The first pass over it would dereference that nil policy when building
  the disabled VPA (`Passes.AdmittedParentWithoutPolicyIsOutsideModel`).
- After the bootstrap pass the VPA has no recommendation while a decision is recorded, so the
  next pass dereferences a nil recommendation unless the recommender has written one first
  (`Passes.FirstPassLeavesRecommendationUnset`).
  These three are recorded as facts rather than findings: the code does not show which
  behaviour was intended, so the model keeps them as preconditions or error results.
- Status is written at most twice per pass: the initial seeding, then at most one of a
  validation failure, a definition failure or the final success. A pass that stops at the
  re-read, at a child's read, create or update, or at a failing status write makes no second
  status write.
- Every status write sets one condition type with `SetStatusCondition` and keeps the others,
  so a reported failure never erases the recorded ScalingDecision, the state machine's only
  memory (`Controller.ConditionsKept`).

## Model

| member | source | states |
|---|---|---|
| `Generators.GenerateEnabledVpa` | api/v1alpha1/autoscaler_generators.go:10-19 | the child carries the parent's VPA spec field for field, under the parent's name and namespace, with an empty status |
| `Generators.GenerateDisabledVpa` | api/v1alpha1/autoscaler_generators.go:21-32 | update mode is Off; putting the parent's update policy back yields exactly the parent's VPA spec, so nothing else differs; the policy's minReplicas is kept |
| `Generators.GenerateEnabledHpa` | api/v1alpha1/autoscaler_generators.go:34-43 | the child carries the parent's HPA spec field for field, under the parent's name and namespace |
| `Generators.GenerateDisabledHpa` | api/v1alpha1/autoscaler_generators.go:45-64 | maxReplicas is the parent's minReplicas, or 1 when that is unset; minReplicas is kept; putting the parent's maxReplicas back yields exactly the parent's HPA spec |
| `Generators.VpaTemplatesCoincideIffOff` | api/v1alpha1/autoscaler_generators.go:10-32 | enabled and disabled VPA templates are equal if and only if the parent already asks for update mode Off |
| `Generators.HpaTemplatesCoincideIffPinned` | api/v1alpha1/autoscaler_generators.go:34-64 | enabled and disabled HPA templates are equal if and only if the parent's maxReplicas already equals its floor (minReplicas or 1) |
| `Generators.DisabledHpaIsPinned` | api/v1alpha1/autoscaler_generators.go:45-64 | with a floor set, a disabled HPA's range is the single value minReplicas = maxReplicas |
| `Generators.DisablingIsIdempotent` | api/v1alpha1/autoscaler_generators.go:21-64 | disabling a parent whose specs are already the disabled templates gives the same templates |
| `Validation.EqualTargetRefs` | api/v1alpha1/validation.go:18-22 | the field-by-field comparison of Name, Kind and APIVersion holds exactly when the two references are equal |
| `Validation.Validate` | api/v1alpha1/validation.go:11-16 | no error exactly when the VPA target reference equals the HPA scale target reference; every error starts with "spec.VPA.targetRef does not match spec.HPA.scaleTargetRef" |
| `Validation.ValidateReadsOnlyTargetRefs` | api/v1alpha1/validation.go:11-22 | two parents with the same two references get the same verdict and message, whatever their replica bounds, metrics, update policy or threshold |
| `Validation.DifferentNameIsRejected` | api/v1alpha1/cranepodautoscaler_webhook_test.go:32-57 | same Kind and APIVersion with a different Name is rejected with the mismatch message |
| `Validation.IdenticalRefsAreAdmitted` | api/v1alpha1/cranepodautoscaler_webhook_test.go:60-85 | identical references are admitted |
| `Utilization.BiggestContainerResourceUtilization` | internal/controller/cranepodautoscaler_controller.go:305-327 | the result bounds every container's CPU and memory ratio and is at least 0; if positive it is the first ratio, in CPU-then-memory order, that attains the maximum, with that container's name; otherwise it is (0, "NOCONTAINER"), in particular for an empty list |
| `Utilization.Fold` | internal/controller/cranepodautoscaler_controller.go:308-324 | running the loop from any prefix whose running result is the worst of that prefix yields the worst of the whole list |
| `Utilization.StepKeepsWorst` | internal/controller/cranepodautoscaler_controller.go:309-323 | one loop iteration with the two strict comparisons extends "worst of the first n containers" to n + 1 |
| `Utilization.WorstIsUnique` | internal/controller/cranepodautoscaler_controller.go:305-327 | the first-strict-maximum characterisation determines both the name and the ratio |
| `Utilization.EvaluatorIsTheWorst` | internal/controller/cranepodautoscaler_controller.go:305-327 | any result meeting the characterisation is the evaluator's result |
| `Decision.Decide` | internal/controller/cranepodautoscaler_controller.go:136-184 | bootstrap (child just created or no recorded decision) gives HPA; from VPA the result is HPA if and only if utilization > threshold/100; from any other reason the result is VPA if and only if desired ≤ min replicas and utilization ≤ threshold/100 |
| `Decision.VpaOnlyWithinThreshold` | internal/controller/cranepodautoscaler_controller.go:151-183 | whatever the history, VPA is never chosen while utilization is above the threshold, nor on a bootstrap pass |
| `Decision.HandBackOnlyAtFloor` | internal/controller/cranepodautoscaler_controller.go:166-183 | control passes from HPA to VPA only when the HPA's desired replicas are at or below its floor |
| `Decision.BootstrapIgnoresSignals` | internal/controller/cranepodautoscaler_controller.go:136-147 | on a bootstrap pass the decision is HPA for every utilization, threshold and replica count |
| `Decision.ThresholdBoundary` | internal/controller/cranepodautoscaler_controller.go:153-175 | exactly at the threshold a VPA decision stays VPA, and an HPA at its floor switches to VPA |
| `Decision.DecisionSettles` | internal/controller/cranepodautoscaler_controller.go:148-184 | replaying a non-bootstrap decision as the recorded reason, with the same signals, yields the same decision: no flapping |
| `Decision.ThresholdScenarios` | internal/controller/cranepodautoscaler_controller.go:151-183 | with an 80% threshold and a floor of 2: 0.5 at the floor goes to VPA, 0.95 from VPA goes to HPA, 0.5 above the floor stays HPA, a just-created child forces HPA |
| `Children.SetControllerReference` | internal/controller/cranepodautoscaler_controller.go:280-294 | the new child gets the parent as controller owner, keeping its name, namespace, spec and status |
| `Children.GetOrCreate` | internal/controller/cranepodautoscaler_controller.go:210-254 | created is true if and only if the read reported NotFound and the owner linkage and the create succeeded; an existing child is returned as read; any other read error is returned with no create attempted |
| `Children.GetOrCreateVpa` | internal/controller/cranepodautoscaler_controller.go:210-231 | a new VPA has the disabled template (update mode Off), the parent's name and namespace, the parent as owner and an empty status |
| `Children.GetOrCreateHpa` | internal/controller/cranepodautoscaler_controller.go:233-254 | a new HPA has the parent's HPA spec unchanged, the parent's name and namespace, the parent as owner and an empty status |
| `Children.SyncSpec` | internal/controller/cranepodautoscaler_controller.go:329-378 | afterwards the live spec is the desired one and its metadata and status are untouched; a write is issued if and only if the specs differed; it fails exactly on a failing owner step, or on a failing update when one was needed |
| `Children.ReconcileVpa` | internal/controller/cranepodautoscaler_controller.go:329-352 | the synced spec is exactly the template for the given role: the parent's VPA spec when active, the disabled template (update mode Off, everything else from the parent) when passive; status and metadata are kept; a write happens if and only if the live spec differed from the template |
| `Children.ReconcileHpa` | internal/controller/cranepodautoscaler_controller.go:354-378 | the synced spec is exactly the template for the given role: the parent's HPA spec when active, the disabled template (maxReplicas at the floor, everything else from the parent) when passive; status and metadata are kept; a write happens if and only if the live spec differed from the template |
| `Children.ReconcileVpaIdempotent` | internal/controller/cranepodautoscaler_controller.go:340-349 | a second VPA sync with the same inputs writes nothing and changes nothing |
| `Children.ReconcileHpaIdempotent` | internal/controller/cranepodautoscaler_controller.go:367-375 | a second HPA sync with the same inputs writes nothing and changes nothing |
| `Children.CreatedChildrenNeedNoSync` | internal/controller/cranepodautoscaler_controller.go:280-294 | a freshly created VPA is already in its passive shape and a fresh HPA in its active shape |
| `Controller.ScalingDecision` | internal/controller/cranepodautoscaler_controller.go:133-184 | a bootstrap pass decides HPA; with VPA recorded the decision is HPA if and only if the evaluator's worst utilization over the VPA's recommendation is above the parent's threshold; with any other reason recorded it is VPA if and only if the live HPA's desired replicas are at or below the live HPA's minReplicas and that utilization is within the threshold |
| `Controller.Reconcile` | internal/controller/cranepodautoscaler_controller.go:71-208 | a failed parent read returns that error with no writes; a missing parent ends successfully with no writes; for every set of failures, no object disappears, the parent's spec and every child's metadata and status are kept, a changed child carries one of its templates, and the write list names a child exactly when it changed; a successful pass leaves both children on the templates of the recorded decision, with Available=True "Reconciliation successful"; a parent that fails validation ends in error with both children untouched, and, once past the seeding, either returns the failed report's error or sets Available=False "Validation failed: …" as its last write and returns the validation error; a successful pass over a valid parent with both children present records the decision `ScalingDecision` computes from the stored parent and children; every step-failure error names a step that failed, and a failing final status write never yields success; on a parent seen with no conditions, a failed seeding write returns its error with nothing written, a failed re-read returns its error after the single seeding write, and a pass that fails at a step it does not report still shows the seeded Available=Unknown "Starting reconciliation"; the parent's other conditions are kept: a successful pass changes only Available and ScalingDecision, any other outcome only Available, so a failure never erases the recorded decision |
| `Controller.SeedAndSync` | internal/controller/cranepodautoscaler_controller.go:88-104 | a parent seen with no conditions: a failed seeding write returns that error with nothing written; otherwise Available=Unknown "Starting reconciliation" is written before anything else, a failed re-read stops the pass with exactly that write and the seeded parent, and any later failure at a step the pass does not report on the parent leaves that seeded condition in place; both outcomes of the validation report, validation, frame, write accounting, convergence and recorded decision as for `ValidateAndSync`; the parent's other conditions are kept: a successful pass changes only Available and ScalingDecision, any other outcome only Available, so a failure never erases the recorded decision |
| `Controller.ValidateAndSync` | internal/controller/cranepodautoscaler_controller.go:106-199 | the pass after the parent is read keeps the same frame and write accounting and converges on success; a parent that fails validation ends in error with both children untouched: a failed report returns the report's error with nothing written, otherwise the one write sets Available=False "Validation failed: <message>" and the validation error is returned; with both children present, success records the decision computed from them; every step-failure error names a failed step, a failing final status write never yields success, and a failure not reported on the parent leaves its stored status untouched; the parent's other conditions are kept: a successful pass changes only Available and ScalingDecision, any other outcome only Available, so a failure never erases the recorded decision |
| `Controller.FetchAndSync` | internal/controller/cranepodautoscaler_controller.go:117-199 | after validation, existing children are used as read, so a successful pass over two existing children records the decision computed from them; frame, templates and write accounting as for the whole pass; a failed VPA fetch-or-create is handled exactly by `FetchFailure`, and a failed HPA fetch-or-create after it returns `FetchFailure`'s result and store; failures surface and unreported ones keep the parent as for `ValidateAndSync`; the parent's other conditions are kept: a successful pass changes only Available and ScalingDecision, any other outcome only Available, so a failure never erases the recorded decision |
| `Controller.FetchHpaAndSync` | internal/controller/cranepodautoscaler_controller.go:123-199 | once the VPA is at hand, a failed HPA fetch-or-create is handled exactly by `FetchFailure` on the store as it stands; otherwise the pass decides and syncs, never creates the VPA, and, when neither child was created, a successful pass records the decision computed from the stored children; frame, templates, write accounting, surfaced failures and the untouched parent on unreported failures as for the whole pass; the parent's other conditions are kept: a successful pass changes only Available and ScalingDecision, any other outcome only Available, so a failure never erases the recorded decision |
| `Controller.SyncFetched` | internal/controller/cranepodautoscaler_controller.go:124-199 | with the HPA fetched or created: a successful pass records the decision computed over the HPA as fetched, counting a create of either child as a bootstrap; the VPA is never created here; frame, templates, write accounting, surfaced failures, the untouched parent on unreported failures and kept conditions: a successful pass changes only Available and ScalingDecision, any other outcome only Available, so a failure never erases the recorded decision |
| `Controller.FetchFailure` | internal/controller/cranepodautoscaler_controller.go:256-278 | both children stay as they were; a failed read or create returns that error with no write; a failed owner step is reported by one status write setting Available=False with a message starting "Failed to create <kind> for the custom resource (<name>)", and returns the owner-step error; if that status write fails, its error is returned and nothing is written; every condition other than Available, the recorded ScalingDecision included, is kept |
| `Controller.DecideAndSync` | internal/controller/cranepodautoscaler_controller.go:133-207 | on success the recorded decision is the one the state machine computed, and both children carry its templates; the VPA is never created here; failures surface and stop the pass as stated for `Controller.SyncAndReport`; the parent's other conditions are kept: a successful pass changes only Available and ScalingDecision, any other outcome only Available, so a failure never erases the recorded decision |
| `Controller.SyncAndReport` | internal/controller/cranepodautoscaler_controller.go:185-207 | VPA first, then HPA, then one status write: a failed VPA sync returns its step with the store and write list unchanged and the HPA untouched; a failed HPA sync returns its step with only the VPA sync applied; a failed final status write returns that error with the parent as it was; on success the given decision is recorded, both children carry its templates and Available=True "Reconciliation successful"; the parent's other conditions are kept: a successful pass changes only Available and ScalingDecision, any other outcome only Available, so a failure never erases the recorded decision |
| `Controller.SyncHpaAndReport` | internal/controller/cranepodautoscaler_controller.go:195-207 | with the VPA already on the decided template: a failed HPA sync returns its step with nothing changed or written; the VPA is neither created nor updated; a failed final status write leaves the parent as it was and never yields success; on success the decision is recorded, both children carry its templates and the last write is the success report; the parent's other conditions are kept: a successful pass changes only Available and ScalingDecision, any other outcome only Available, so a failure never erases the recorded decision |
| `Passes.InvalidParentTouchesNoChild` | internal/controller/cranepodautoscaler_controller.go:106-115 | mismatched target references end the pass in error with neither child touched; with no failing call the error is the validation error and Available=False carries "Validation failed: spec.VPA.targetRef does not match …" |
| `Passes.FaultFreePassSucceeds` | internal/controller/cranepodautoscaler_controller.go:71-208 | with no failing call, a present and valid parent always gets a successful pass |
| `Passes.FetchAndSyncSucceeds` | internal/controller/cranepodautoscaler_controller.go:117-207 | past validation, with no failing call, fetching or creating both children, deciding, syncing and the final status write all succeed |
| `Passes.BootstrapPassSelectsHpa` | internal/controller/cranepodautoscaler_controller.go:136-147 | a successful pass that created a child, or found no recorded decision, records HPA |
| `Passes.SyncedChildrenNeedNoWrite` | internal/controller/cranepodautoscaler_controller.go:185-207 | when both children already carry the templates of the decision, the pass writes only the final status |
| `Passes.FirstSyncCreatesBoth` | internal/controller/cranepodautoscaler_controller.go:117-199 | with no children, the pass after seeding creates both and then writes only the status |
| `Passes.FirstPassCreatesBoth` | internal/controller/cranepodautoscaler_controller.go:117-127 | the first pass over a valid parent creates the VPA disabled and the HPA enabled, both owned by the parent; it decides HPA; its only writes are the seed status, the two creates and the final status |
| `Passes.SameDecisionWritesNothing` | internal/controller/cranepodautoscaler_controller.go:329-378 | on a converged store, a pass that confirms the recorded decision writes to neither child |
| `Passes.SecondPassWritesNothing` | internal/controller/cranepodautoscaler_controller.go:71-208 | after a successful pass, whatever statuses the autoscalers then report, a second pass that keeps the decision writes only the status |
| `Passes.DecisionReplays` | internal/controller/cranepodautoscaler_controller.go:148-184 | with the same autoscaler statuses and threshold, re-evaluating the recorded decision gives it back |
| `Passes.ExistingChildrenPass` | internal/controller/cranepodautoscaler_controller.go:88-133 | over a valid parent that already has conditions and both children, a pass without failures seeds nothing, reports nothing and creates nothing: it is exactly the decide-and-sync stage over the stored children |
| `Passes.ReplayIsFixedPoint` | internal/controller/cranepodautoscaler_controller.go:71-208 | after a non-bootstrap fault-free pass, a second fault-free pass with unchanged statuses returns the same store and writes only the status it already holds |
| `Passes.HandBackPass` | internal/controller/cranepodautoscaler_controller.go:166-207 | with HPA recorded, the live HPA at or below its floor and the worst utilization within the threshold, a fault-free pass records VPA, gives the VPA the parent's spec and pins the HPA's maxReplicas to its floor |
| `Passes.ScaleOutPass` | internal/controller/cranepodautoscaler_controller.go:148-207 | with VPA recorded and the worst utilization above the threshold, a fault-free pass records HPA, gives the HPA the parent's spec and the VPA the disabled template |
| `Passes.InvalidParentNeedsNoRecommendation` | internal/controller/cranepodautoscaler_controller.go:106-115 | a parent with mismatched references is within the precondition even when a decision is recorded and the VPA has no recommendation, and its pass ends in error with both children untouched |
| `Passes.FirstPassLeavesRecommendationUnset` | internal/controller/cranepodautoscaler_controller.go:152 | the store the first pass leaves behind holds a VPA with no recommendation next to a recorded decision, so it falls outside `Controller.Dereferenceable`: the next pass would read a nil recommendation unless the recommender writes one first |
| `Passes.AdmittedParentWithoutPolicyIsOutsideModel` | api/v1alpha1/cranepodautoscaler_webhook_test.go:60-85 | a parent with agreeing references and no VPA update policy, like the one the webhook test admits, passes validation but lies outside `Controller.Dereferenceable`, since its first pass would read the nil policy in the disabled VPA template (api/v1alpha1/autoscaler_generators.go:21-32) |
| `Passes.EmptyScaleTargetIsRejected` | internal/controller/cranepodautoscaler_controller_test.go:48-97 | the controller test's parent, with an empty HPA scale target reference and a VPA targeting a Deployment, fails validation, so its pass returns the validation error |

## Left out

- Kubernetes client calls, controller-runtime wiring (`SetupWithManager`), the event recorder and logging are not modelled.
  Each client call becomes a step of the pass that succeeds or fails as the `faults` parameter says.
- Optimistic-concurrency conflicts, cancellation and concurrent writers are not modelled.
  A conflict is just a failing step, and the store changes only through the pass itself.
- The admission webhook (`ValidateCreate`/`ValidateUpdate` return `Validate()`, `Default` does nothing) is not modelled; `Validate` itself is.
- Float32 arithmetic is replaced by exact rationals.
  Rounding near the threshold is not modelled.
  In the code, `x/0` gives +Inf and `0/0` gives NaN; here every upper bound must be positive (`Utilization.Readable`).
- Nil-pointer dereferences are preconditions (`Controller.Dereferenceable`):
  - the VPA target reference, read by validation;
  - the VPA update policy, for any parent that passes validation, even when the VPA exists and is active so that the disabled template is not built;
  - the VPA recommendation, whenever a valid parent's recorded decision is re-evaluated;
  - the live HPA's minReplicas, whenever that decision was not VPA.
  A parent that fails validation needs only its VPA target reference, since the pass rejects it before reading anything else.
  `Passes.FirstPassLeavesRecommendationUnset` shows the store after the bootstrap pass falls outside this precondition until the recommender writes.
- `SetControllerReference` is an opaque step that may fail. It sets the parent as controller owner on a created child.
  The owner reference put on the desired object during sync is never copied to the live child, so no ownership claim is made about sync.
- `meta.SetStatusCondition` is an upsert in a map keyed by condition type. `LastTransitionTime` and `ObservedGeneration` are not modelled.
- The text of the diff printer in the validation error, and of a collaborator's error inside the definition-failure message, is a placeholder.
  Only the message prefixes are promised: by `Validation.Validate` and `Passes.InvalidParentTouchesNoChild` for a validation failure, and by `Controller.FetchFailure` for a definition failure.
- The store holds the objects at the request's namespace and name only. The children are read under the parent's name and namespace, as in the code.
- Integer widths (int32 replica counts, int64 quantities) are unbounded integers. The controller does no arithmetic on them that could overflow.
- `Controller.Reconcile`: the owner reference set during sync is not checked (see above).
- The store hands back exactly the object last written: the API server's defaulting of fields is not modelled.
  `Passes.FirstPassCreatesBoth`, `Passes.SameDecisionWritesNothing`, `Passes.SecondPassWritesNothing` and `Passes.ReplayIsFixedPoint` rely on this.
  If the server fills in defaults (for example an autoscaling/v2 HPA's `metrics`), the comparison in reconcileHPA sees a difference and updates on every pass.

=== FILE: children.dfy ===
/** The child synchronizer: fetch-or-create a child, then bring its spec to
    the template for the decided activity with a compare-then-write, never
    touching the child's status. Both kinds go through the same generic
    functions; the kind-specific parts are only which template is used. */
module Children {
  import opened Optional
  import opened Kube
  import opened CraneApi
  import opened Generators
  import opened ObjectStore

  datatype Fetch<T> = Fetched(obj: T, created: bool) | FetchFailed(at: Step)

  datatype Sync<T> = Synced(obj: T, wrote: bool) | SyncFailed(at: Step)

  /** The owner linkage a child receives when it is created. */
  function SetControllerReference<S, T>(c: Child<S, T>, owner: OwnerReference): (r: Child<S, T>)
    ensures r.meta.controller == Some(owner)
    ensures r.meta.name == c.meta.name && r.meta.namespace == c.meta.namespace
    ensures r.spec == c.spec && r.status == c.status
  {
    c.(meta := c.meta.(controller := Some(owner)))
  }

  /** Read the child; when the store reports it absent, create `newChild` with
      the owner linkage. Any failure ends the step with that failure. */
  function GetOrCreate<S, T>(kind: ChildKind, live: Option<Child<S, T>>, newChild: Child<S, T>,
                             owner: OwnerReference, faults: set<Step>): (r: Fetch<Child<S, T>>)
    ensures GetChild(kind) in faults ==> r == FetchFailed(GetChild(kind))
    ensures r.Fetched? && !r.created <==> GetChild(kind) !in faults && live.Some?
    ensures r.Fetched? && !r.created ==> live == Some(r.obj)
    ensures r.Fetched? && r.created <==>
              live.None? && GetChild(kind) !in faults && NewOwnerRef(kind) !in faults && CreateChild(kind) !in faults
    ensures r.Fetched? && r.created ==> r.obj == SetControllerReference(newChild, owner)
    ensures r.FetchFailed? ==> r.at in faults && r.at in {GetChild(kind), NewOwnerRef(kind), CreateChild(kind)}
  {
    if GetChild(kind) in faults then FetchFailed(GetChild(kind))
    else if live.Some? then Fetched(live.value, false)
    else if NewOwnerRef(kind) in faults then FetchFailed(NewOwnerRef(kind))
    else if CreateChild(kind) in faults then FetchFailed(CreateChild(kind))
    else Fetched(SetControllerReference(newChild, owner), true)
  }

  /** A VPA is created disabled, so a new VPA never moves the workload before a decision. */
  function GetOrCreateVpa(live: Option<Vpa>, p: CranePodAutoscaler, faults: set<Step>): (r: Fetch<Vpa>)
    requires p.spec.vpa.updatePolicy.Some?
    ensures r.Fetched? && r.created ==>
              && r.obj.spec == GenerateDisabledVpa(p).spec
              && r.obj.spec.updatePolicy.value.updateMode == Some(Off)
              && r.obj.meta == ObjectMeta(p.meta.name, p.meta.namespace, Some(ControllerRef(p)))
              && r.obj.status == EmptyVpaStatus
  {
    GetOrCreate(VpaKind, live, GenerateDisabledVpa(p), ControllerRef(p), faults)
  }

  /** An HPA is created enabled, matching the bootstrap decision. */
  function GetOrCreateHpa(live: Option<Hpa>, p: CranePodAutoscaler, faults: set<Step>): (r: Fetch<Hpa>)
    ensures r.Fetched? && r.created ==>
              && r.obj.spec == p.spec.hpa
              && r.obj.meta == ObjectMeta(p.meta.name, p.meta.namespace, Some(ControllerRef(p)))
              && r.obj.status == EmptyHpaStatus
  {
    GetOrCreate(HpaKind, live, GenerateEnabledHpa(p), ControllerRef(p), faults)
  }

  /** Compare-then-write: the live object ends with the desired spec and its
      own metadata and status, and a write is issued exactly when the specs
      differed. */
  function SyncSpec<S(==), T>(kind: ChildKind, live: Child<S, T>, desired: S, faults: set<Step>): (r: Sync<Child<S, T>>)
    ensures r.Synced? ==> r.obj.spec == desired && r.obj.meta == live.meta && r.obj.status == live.status
    ensures r.Synced? ==> (r.wrote <==> desired != live.spec)
    ensures r.SyncFailed? <==> SyncOwnerRef(kind) in faults || (desired != live.spec && UpdateChild(kind) in faults)
    ensures r.SyncFailed? ==> r.at in faults
  {
    if SyncOwnerRef(kind) in faults then SyncFailed(SyncOwnerRef(kind))
    else if desired == live.spec then Synced(live, false)
    else if UpdateChild(kind) in faults then SyncFailed(UpdateChild(kind))
    else Synced(live.(spec := desired), true)
  }

  function ReconcileVpa(p: CranePodAutoscaler, live: Vpa, active: bool, faults: set<Step>): (r: Sync<Vpa>)
    requires active || p.spec.vpa.updatePolicy.Some?
    ensures r.Synced? ==> r.obj.spec == VpaTemplate(p, active).spec
    ensures r.Synced? && active ==> r.obj.spec == p.spec.vpa
    ensures r.Synced? && !active ==> r.obj.spec.updatePolicy.Some? && r.obj.spec.updatePolicy.value.updateMode == Some(Off)
    ensures r.Synced? ==> r.obj.meta == live.meta && r.obj.status == live.status
    ensures r.Synced? ==> (r.wrote <==> live.spec != VpaTemplate(p, active).spec)
  {
    SyncSpec(VpaKind, live, VpaTemplate(p, active).spec, faults)
  }

  function ReconcileHpa(p: CranePodAutoscaler, live: Hpa, active: bool, faults: set<Step>): (r: Sync<Hpa>)
    ensures r.Synced? ==> r.obj.spec == HpaTemplate(p, active).spec
    ensures r.Synced? && active ==> r.obj.spec == p.spec.hpa
    ensures r.Synced? && !active ==> r.obj.spec.maxReplicas == EffectiveMinReplicas(p.spec.hpa)
                                     && r.obj.spec.minReplicas == p.spec.hpa.minReplicas
    ensures r.Synced? ==> r.obj.meta == live.meta && r.obj.status == live.status
    ensures r.Synced? ==> (r.wrote <==> live.spec != HpaTemplate(p, active).spec)
  {
    SyncSpec(HpaKind, live, HpaTemplate(p, active).spec, faults)
  }

  /** Running the VPA sync again on its own result writes nothing and changes nothing. */
  lemma ReconcileVpaIdempotent(p: CranePodAutoscaler, live: Vpa, active: bool, f1: set<Step>, f2: set<Step>)
    requires active || p.spec.vpa.updatePolicy.Some?
    requires ReconcileVpa(p, live, active, f1).Synced?
    requires SyncOwnerRef(VpaKind) !in f2
    ensures var once := ReconcileVpa(p, live, active, f1).obj;
            ReconcileVpa(p, once, active, f2) == Synced(once, false)
  {
  }

  /** Running the HPA sync again on its own result writes nothing and changes nothing. */
  lemma ReconcileHpaIdempotent(p: CranePodAutoscaler, live: Hpa, active: bool, f1: set<Step>, f2: set<Step>)
    requires ReconcileHpa(p, live, active, f1).Synced?
    requires SyncOwnerRef(HpaKind) !in f2
    ensures var once := ReconcileHpa(p, live, active, f1).obj;
            ReconcileHpa(p, once, active, f2) == Synced(once, false)
  {
  }

  /** A freshly created VPA is already in its passive shape and a freshly
      created HPA in its active shape, so the bootstrap pass syncs them
      without a further write. */
  lemma CreatedChildrenNeedNoSync(p: CranePodAutoscaler, f: set<Step>)
    requires p.spec.vpa.updatePolicy.Some?
    requires SyncOwnerRef(VpaKind) !in f && SyncOwnerRef(HpaKind) !in f
    requires GetOrCreateVpa(None, p, f).Fetched? && GetOrCreateHpa(None, p, f).Fetched?
    ensures var v := GetOrCreateVpa(None, p, f).obj;
            ReconcileVpa(p, v, false, f) == Synced(v, false)
    ensures var h := GetOrCreateHpa(None, p, f).obj;
            ReconcileHpa(p, h, true, f) == Synced(h, false)
  {
  }
}

=== FILE: controller.dfy ===
/** One reconciliation pass of the CranePodAutoscaler controller.

    The pass reads the parent, seeds its conditions on first sight,
    validates it, fetches or creates both children, decides which one is
    active, syncs both specs to their templates and finally records the
    decision and success in one status write. The pass is a function of the
    store and of the set of steps that fail; it returns the new store, the
    pass result and the list of writes that took effect. */
module Controller {
  import opened Optional
  import opened Ratios
  import opened Kube
  import opened CraneApi
  import opened Generators
  import opened Validation
  import opened Utilization
  import opened Decision
  import opened ObjectStore
  import opened Children

  const TypeAvailable: string := "Available"
  const TypeScalingDecision: string := "ScalingDecision"
  const ReasonReconciling: string := "Reconciling"
  const ValidationFailed: string := "Validation failed: "

  const StartingCondition: Condition := Condition(ConditionUnknown, ReasonReconciling, "Starting reconciliation")
  const SuccessCondition: Condition := Condition(ConditionTrue, ReasonReconciling, "Reconciliation successful")

  function InvalidCondition(message: string): (r: Condition)
  {
    Condition(ConditionFalse, ReasonReconciling, ValidationFailed + message)
  }

  function DecisionCondition(d: Strategy): (r: Condition)
  {
    Condition(ConditionTrue, d.Name(), "Selected autoscaler is now " + d.Name())
  }

  datatype Error = Failed(at: Step) | Invalid(message: string)

  datatype Result = Ok | Err(error: Error)

  datatype Outcome = Outcome(store: Store, result: Result, writes: seq<Step>)

  /** A stand-in for the text of a collaborator's error. */
  function FailureText(at: Step): (r: string)
  {
    if at.NewOwnerRef? then "owner reference for " + at.kind.Name() + " could not be set" else "store call failed"
  }

  /** The fixed head of the message reporting a failed child definition. */
  function DefinitionFailed(kind: ChildKind, p: CranePodAutoscaler): (r: string)
  {
    "Failed to create " + kind.Name() + " for the custom resource (" + p.meta.name + ")"
  }

  function DefinitionCondition(kind: ChildKind, p: CranePodAutoscaler, at: Step): (r: Condition)
  {
    Condition(ConditionFalse, ReasonReconciling, DefinitionFailed(kind, p) + ": (" + FailureText(at) + ")")
  }

  function WithCondition(p: CranePodAutoscaler, condType: string, c: Condition): (r: CranePodAutoscaler)
  {
    p.(status := CraneStatus(SetStatusCondition(p.status.conditions, condType, c)))
  }

  /** A status write replaces the stored parent's status and nothing else. */
  function PutStatus(st: Store, p: CranePodAutoscaler): (r: Store)
    requires st.parent.Some?
    ensures r.parent.Some? && r.parent.value.spec == st.parent.value.spec && r.parent.value.meta == st.parent.value.meta
    ensures r.parent.value.status == p.status
    ensures r.vpa == st.vpa && r.hpa == st.hpa
  {
    st.(parent := Some(st.parent.value.(status := p.status)))
  }

  /** The reason of the recorded ScalingDecision condition, the machine's memory. */
  function LastDecision(p: CranePodAutoscaler): (r: Option<string>)
    ensures r.Some? <==> TypeScalingDecision in p.status.conditions
  {
    match FindStatusCondition(p.status.conditions, TypeScalingDecision)
    case Some(c) => Some(c.reason)
    case None => None
  }

  function Recorded(p: CranePodAutoscaler): (r: Option<Strategy>)
  {
    if LastDecision(p) == Some(RefVpa) then Some(VPA)
    else if LastDecision(p) == Some(RefHpa) then Some(HPA)
    else None
  }

  predicate RecommendationReadable(s: VpaStatus)
  {
    s.recommendation.Some? && Readable(s.recommendation.value.containerRecommendations)
  }

  /** The pointers the decision dereferences are set: the VPA's recommendation
      whenever a recorded decision is re-evaluated, and the live HPA's
      minReplicas whenever that decision was not VPA. */
  predicate DecisionInputsDefined(justCreated: bool, p: CranePodAutoscaler, vpa: Vpa, hpa: Hpa)
  {
    || justCreated
    || LastDecision(p).None?
    || (&& RecommendationReadable(vpa.status)
        && (LastDecision(p) != Some(RefVpa) ==> hpa.spec.minReplicas.Some?))
  }

  /** The store holds no nil pointer that a pass would dereference. A parent
      that fails validation is rejected before anything past the target
      references is read. */
  predicate Dereferenceable(st: Store)
  {
    st.parent.Some? ==>
      var p := st.parent.value;
      && p.spec.vpa.targetRef.Some?
      && (p.spec.vpa.targetRef.value == p.spec.hpa.scaleTargetRef ==>
            && p.spec.vpa.updatePolicy.Some?
            && (st.vpa.Some? && st.hpa.Some? ==> DecisionInputsDefined(false, p, st.vpa.value, st.hpa.value)))
  }

  /** The stored parent passes validation. */
  predicate Valid(st: Store)
  {
    && st.parent.Some? && st.parent.value.spec.vpa.targetRef.Some?
    && st.parent.value.spec.vpa.targetRef.value == st.parent.value.spec.hpa.scaleTargetRef
  }

  /** The worst utilization the decision reads from the VPA's recommendation. */
  function WorstUtilization(vpa: Vpa): (r: Ratio)
    requires RecommendationReadable(vpa.status)
  {
    BiggestContainerResourceUtilization(vpa.status.recommendation.value.containerRecommendations).utilization
  }

  /** The decision block of the pass: the evaluator and the live HPA's floor
      are read only where the state machine needs them. */
  function ScalingDecision(justCreated: bool, p: CranePodAutoscaler, vpa: Vpa, hpa: Hpa): (d: Strategy)
    requires DecisionInputsDefined(justCreated, p, vpa, hpa)
    ensures justCreated || LastDecision(p).None? ==> d == HPA
    ensures !justCreated && LastDecision(p) == Some(RefVpa) ==>
              (d == HPA <==> OverThreshold(WorstUtilization(vpa), p.spec.behavior.vpaCapacityThresholdPercent))
    ensures !justCreated && LastDecision(p).Some? && LastDecision(p) != Some(RefVpa) ==>
              (d == VPA <==> && hpa.status.desiredReplicas <= hpa.spec.minReplicas.value
                             && !OverThreshold(WorstUtilization(vpa), p.spec.behavior.vpaCapacityThresholdPercent))
    ensures d == VPA ==>
              && !justCreated && LastDecision(p).Some?
              && !OverThreshold(WorstUtilization(vpa), p.spec.behavior.vpaCapacityThresholdPercent)
  {
    var previous := LastDecision(p);
    var bootstrap := justCreated || previous.None?;
    var worst := if bootstrap then Zero else WorstUtilization(vpa);
    var minReplicas := if bootstrap || previous == Some(RefVpa) then 0 else hpa.spec.minReplicas.value;
    var d := Decide(justCreated, previous, worst, p.spec.behavior.vpaCapacityThresholdPercent,
                    hpa.status.desiredReplicas, minReplicas);
    if d == VPA then
      VpaOnlyWithinThreshold(justCreated, previous, worst, p.spec.behavior.vpaCapacityThresholdPercent,
                             hpa.status.desiredReplicas, minReplicas);
      d
    else d
  }

  /** Nothing outside the two child specs and the parent status ever changes:
      no object disappears, the parent's spec and every child's metadata and
      status stay as they were. */
  ghost predicate Framed(st: Store, st': Store)
  {
    && (st'.parent.Some? <==> st.parent.Some?)
    && (st.parent.Some? ==> st'.parent.value.meta == st.parent.value.meta
                            && st'.parent.value.spec == st.parent.value.spec)
    && (st.vpa.Some? ==> st'.vpa.Some? && st'.vpa.value.meta == st.vpa.value.meta
                         && st'.vpa.value.status == st.vpa.value.status)
    && (st.hpa.Some? ==> st'.hpa.Some? && st'.hpa.value.meta == st.hpa.value.meta
                         && st'.hpa.value.status == st.hpa.value.status)
  }

  /** A child that changed now carries one of its two templates. */
  ghost predicate ChildrenFromTemplates(st: Store, st': Store)
  {
    && (st'.vpa != st.vpa ==>
          && st.parent.Some? && st.parent.value.spec.vpa.updatePolicy.Some? && st'.vpa.Some?
          && (|| st'.vpa.value.spec == GenerateEnabledVpa(st.parent.value).spec
              || st'.vpa.value.spec == GenerateDisabledVpa(st.parent.value).spec))
    && (st'.hpa != st.hpa ==>
          && st.parent.Some? && st'.hpa.Some?
          && (|| st'.hpa.value.spec == GenerateEnabledHpa(st.parent.value).spec
              || st'.hpa.value.spec == GenerateDisabledHpa(st.parent.value).spec))
  }

  /** The write list accounts for every change: a child changed exactly when
      a create or update of it took effect, and no write at all means an
      unchanged store. */
  ghost predicate WritesAccountFor(st: Store, out: Outcome)
  {
    && (forall s :: s in out.writes ==> IsWrite(s))
    && ((CreateChild(VpaKind) in out.writes || UpdateChild(VpaKind) in out.writes) <==> out.store.vpa != st.vpa)
    && ((CreateChild(HpaKind) in out.writes || UpdateChild(HpaKind) in out.writes) <==> out.store.hpa != st.hpa)
    && (out.writes == [] ==> out.store == st)
  }

  /** A pass that went through: both children carry the templates of the
      recorded decision, and the parent says so. */
  ghost predicate Converged(st: Store)
  {
    && st.parent.Some? && st.vpa.Some? && st.hpa.Some?
    && var p := st.parent.value;
    && p.spec.vpa.updatePolicy.Some?
    && Recorded(p).Some?
    && var d := Recorded(p).value;
    && st.vpa.value.spec == VpaTemplate(p, d == VPA).spec
    && st.hpa.value.spec == HpaTemplate(p, d == HPA).spec
    && TypeAvailable in p.status.conditions && p.status.conditions[TypeAvailable] == SuccessCondition
    && TypeScalingDecision in p.status.conditions && p.status.conditions[TypeScalingDecision] == DecisionCondition(d)
  }

  /** Failures surface: an error naming a step names one that failed, and a
      failing final status write never lets the pass report success. */
  ghost predicate FailuresSurface(out: Outcome, faults: set<Step>)
  {
    && (out.result.Err? && out.result.error.Failed? ==> out.result.error.at in faults)
    && (ReportSuccess in faults ==> !out.result.Ok?)
  }

  /** A failure that is not reported on the parent leaves its stored status as it was. */
  ghost predicate UnreportedFailureKeepsParent(st: Store, out: Outcome)
  {
    out.result.Err? && out.result.error.Failed? && !out.result.error.at.NewOwnerRef? ==> out.store.parent == st.parent
  }

  /** Every condition type outside `touched` is as it was: present on the
      stored parent after the pass exactly when it was before, with the same
      value. Status writes replace one condition type and keep the rest. */
  ghost predicate ConditionsKeptExcept(st: Store, st': Store, touched: set<string>)
  {
    st.parent.Some? && st'.parent.Some? ==>
      var cs, cs' := st.parent.value.status.conditions, st'.parent.value.status.conditions;
      forall t :: t !in touched ==> (t in cs' <==> t in cs) && (t in cs ==> cs'[t] == cs[t])
  }

  /** What the pass may do to the parent's conditions: a pass that went
      through changes only Available and ScalingDecision, and any other pass
      only Available, so the recorded decision survives every failure. */
  ghost predicate ConditionsKept(st: Store, out: Outcome)
  {
    && ConditionsKeptExcept(st, out.store, {TypeAvailable, TypeScalingDecision})
    && (!out.result.Ok? ==> ConditionsKeptExcept(st, out.store, {TypeAvailable}))
  }

  /** A status write that only changed the parent's status, followed by a
      later stage that ran from the written store: the whole keeps the later
      stage's guarantees relative to the store before the write. */
  lemma PrependStatusWrite(st: Store, st1: Store, w: Step, rest: Outcome)
    requires st.parent.Some? && st1.parent.Some? && st1 == st.(parent := st1.parent)
    requires st1.parent.value.meta == st.parent.value.meta && st1.parent.value.spec == st.parent.value.spec
    requires IsWrite(w) && !w.CreateChild? && !w.UpdateChild?
    requires Framed(st1, rest.store) && ChildrenFromTemplates(st1, rest.store) && WritesAccountFor(st1, rest)
    requires ConditionsKeptExcept(st, st1, {TypeAvailable}) && ConditionsKept(st1, rest)
    ensures var out := rest.(writes := [w] + rest.writes);
            && Framed(st, out.store) && ChildrenFromTemplates(st, out.store) && WritesAccountFor(st, out)
            && (EndsWithSuccess(rest.writes) ==> EndsWithSuccess(out.writes))
            && ConditionsKept(st, out)
  {
    var out := rest.(writes := [w] + rest.writes);
    forall s | s in out.writes ensures IsWrite(s) {
      if s != w { assert s in rest.writes; }
    }
    if EndsWithSuccess(rest.writes) {
      assert out.writes[|out.writes| - 1] == rest.writes[|rest.writes| - 1];
    }
  }

  /** Child writes `w` that took `st` to `st1`, followed by a later stage
      that ran from `st1`: the whole keeps the later stage's guarantees
      relative to `st`, provided the later stage does not undo a change `w`
      made. */
  lemma PrependChildWrites(st: Store, st1: Store, w: seq<Step>, rest: Outcome)
    requires st1.parent == st.parent
    requires Framed(st, st1) && ChildrenFromTemplates(st, st1)
    requires forall s :: s in w ==> s.CreateChild? || s.UpdateChild?
    requires (CreateChild(VpaKind) in w || UpdateChild(VpaKind) in w) <==> st1.vpa != st.vpa
    requires (CreateChild(HpaKind) in w || UpdateChild(HpaKind) in w) <==> st1.hpa != st.hpa
    requires st1.vpa != st.vpa ==> rest.store.vpa != st.vpa
    requires st1.hpa != st.hpa ==> rest.store.hpa != st.hpa
    requires Framed(st1, rest.store) && ChildrenFromTemplates(st1, rest.store) && WritesAccountFor(st1, rest)
    ensures var out := rest.(writes := w + rest.writes);
            && Framed(st, out.store) && ChildrenFromTemplates(st, out.store) && WritesAccountFor(st, out)
            && (UnreportedFailureKeepsParent(st1, rest) ==> UnreportedFailureKeepsParent(st, out))
            && (EndsWithSuccess(rest.writes) ==> EndsWithSuccess(out.writes))
            && (ConditionsKept(st1, rest) ==> ConditionsKept(st, out))
            && (CreateChild(VpaKind) !in w && CreateChild(VpaKind) !in rest.writes ==> CreateChild(VpaKind) !in out.writes)
  {
    var out := rest.(writes := w + rest.writes);
    forall s | s in out.writes ensures IsWrite(s) {
      if s !in w { assert s in rest.writes; }
    }
    if EndsWithSuccess(rest.writes) {
      assert out.writes[|out.writes| - 1] == rest.writes[|rest.writes| - 1];
    }
  }

  function Reconcile(st: Store, faults: set<Step>): (out: Outcome)
    requires Dereferenceable(st)
    ensures GetParent in faults ==> out == Outcome(st, Err(Failed(GetParent)), [])
    ensures GetParent !in faults && st.parent.None? ==> out == Outcome(st, Ok, [])
    ensures Framed(st, out.store)
    ensures ChildrenFromTemplates(st, out.store)
    ensures WritesAccountFor(st, out)
    ensures out.result.Ok? && st.parent.Some? ==> Converged(out.store) && EndsWithSuccess(out.writes)
    ensures st.parent.Some? && Validate(st.parent.value).Some? ==>
              out.result.Err? && out.store.vpa == st.vpa && out.store.hpa == st.hpa
    ensures out.result.Ok? && Valid(st) && st.vpa.Some? && st.hpa.Some? ==>
              Recorded(out.store.parent.value) == Some(ScalingDecision(false, st.parent.value, st.vpa.value, st.hpa.value))
    ensures st.parent.Some? ==> FailuresSurface(out, faults)
    ensures && st.parent.Some? && st.parent.value.status.conditions == map[] && GetParent !in faults
            && out.result.Err? && out.result.error.Failed?
            && out.result.error.at != InitStatus && !out.result.error.at.NewOwnerRef? ==>
              && TypeAvailable in out.store.parent.value.status.conditions
              && out.store.parent.value.status.conditions[TypeAvailable] == StartingCondition
    ensures && st.parent.Some? && st.parent.value.status.conditions == map[] && GetParent !in faults ==>
              && (InitStatus in faults ==> out == Outcome(st, Err(Failed(InitStatus)), []))
              && (InitStatus !in faults && Refetch in faults ==>
                    out.result == Err(Failed(Refetch)) && out.writes == [InitStatus])
    ensures && st.parent.Some? && GetParent !in faults && Validate(st.parent.value).Some?
            && (st.parent.value.status.conditions == map[] ==> InitStatus !in faults && Refetch !in faults) ==>
              InvalidReported(st.parent.value, out, faults)
    ensures ConditionsKept(st, out)
  {
    if GetParent in faults then Outcome(st, Err(Failed(GetParent)), [])
    else if st.parent.None? then Outcome(st, Ok, [])
    else if st.parent.value.status.conditions == map[] then SeedAndSync(st, faults)
    else ValidateAndSync(st, faults)
  }

  /** A parent seen with no conditions first gets Available=Unknown "Starting
      reconciliation" and is read again; the rest of the pass runs on that
      seeded parent, so the seeded condition stays unless a later step
      reports on the parent. */
  function SeedAndSync(st: Store, faults: set<Step>): (out: Outcome)
    requires st.parent.Some? && st.parent.value.status.conditions == map[] && Dereferenceable(st)
    ensures Framed(st, out.store)
    ensures ChildrenFromTemplates(st, out.store)
    ensures WritesAccountFor(st, out)
    ensures out.result.Ok? ==> Converged(out.store) && EndsWithSuccess(out.writes)
    ensures Validate(st.parent.value).Some? ==>
              out.result.Err? && out.store.vpa == st.vpa && out.store.hpa == st.hpa
    ensures out.result.Ok? && Valid(st) && st.vpa.Some? && st.hpa.Some? ==>
              Recorded(out.store.parent.value) == Some(ScalingDecision(false, st.parent.value, st.vpa.value, st.hpa.value))
    ensures FailuresSurface(out, faults)
    ensures && out.result.Err? && out.result.error.Failed?
            && out.result.error.at != InitStatus && !out.result.error.at.NewOwnerRef? ==>
              && TypeAvailable in out.store.parent.value.status.conditions
              && out.store.parent.value.status.conditions[TypeAvailable] == StartingCondition
    ensures InitStatus in faults ==> out == Outcome(st, Err(Failed(InitStatus)), [])
    ensures InitStatus !in faults ==> |out.writes| > 0 && out.writes[0] == InitStatus
    ensures InitStatus !in faults && Refetch in faults ==>
              out == Outcome(PutStatus(st, WithCondition(st.parent.value, TypeAvailable, StartingCondition)),
                             Err(Failed(Refetch)), [InitStatus])
    ensures Validate(st.parent.value).Some? && InitStatus !in faults && Refetch !in faults ==>
              InvalidReported(st.parent.value, out, faults)
    ensures ConditionsKept(st, out)
  {
    if InitStatus in faults then Outcome(st, Err(Failed(InitStatus)), [])
    else
      var seeded := PutStatus(st, WithCondition(st.parent.value, TypeAvailable, StartingCondition));
      if Refetch in faults then Outcome(seeded, Err(Failed(Refetch)), [InitStatus])
      else
        var rest := ValidateAndSync(seeded, faults);
        assert Validate(seeded.parent.value) == Validate(st.parent.value);
        PrependStatusWrite(st, seeded, InitStatus, rest);
        rest.(writes := [InitStatus] + rest.writes)
  }

  /** How a validation failure of `p` ends the pass: a failing report
      returns the report's error; otherwise the last write sets Available to
      False with the validation message, and the validation error is returned. */
  ghost predicate InvalidReported(p: CranePodAutoscaler, out: Outcome, faults: set<Step>)
    requires p.spec.vpa.targetRef.Some? && Validate(p).Some?
  {
    && (ReportInvalid in faults ==> out.result == Err(Failed(ReportInvalid)) && ReportInvalid !in out.writes)
    && (ReportInvalid !in faults ==>
          && out.result == Err(Invalid(Validate(p).value))
          && |out.writes| > 0 && out.writes[|out.writes| - 1] == ReportInvalid
          && out.store.parent.Some?
          && TypeAvailable in out.store.parent.value.status.conditions
          && out.store.parent.value.status.conditions[TypeAvailable] == InvalidCondition(Validate(p).value))
  }

  predicate EndsWithSuccess(writes: seq<Step>)
  {
    |writes| > 0 && writes[|writes| - 1] == ReportSuccess
  }

  function ValidateAndSync(st: Store, faults: set<Step>): (out: Outcome)
    requires st.parent.Some? && Dereferenceable(st)
    ensures Framed(st, out.store)
    ensures ChildrenFromTemplates(st, out.store)
    ensures WritesAccountFor(st, out)
    ensures out.result.Ok? ==> Converged(out.store) && EndsWithSuccess(out.writes)
    ensures Validate(st.parent.value).Some? ==>
              out.result.Err? && out.store.vpa == st.vpa && out.store.hpa == st.hpa
    ensures out.result.Ok? && Valid(st) && st.vpa.Some? && st.hpa.Some? ==>
              Recorded(out.store.parent.value) == Some(ScalingDecision(false, st.parent.value, st.vpa.value, st.hpa.value))
    ensures FailuresSurface(out, faults)
    ensures UnreportedFailureKeepsParent(st, out)
    ensures var p := st.parent.value;
            Validate(p).Some? && ReportInvalid in faults ==> out == Outcome(st, Err(Failed(ReportInvalid)), [])
    ensures var p := st.parent.value;
            Validate(p).Some? && ReportInvalid !in faults ==>
              out == Outcome(PutStatus(st, WithCondition(p, TypeAvailable, InvalidCondition(Validate(p).value))),
                             Err(Invalid(Validate(p).value)), [ReportInvalid])
    ensures Validate(st.parent.value).Some? ==> InvalidReported(st.parent.value, out, faults)
    ensures ConditionsKept(st, out)
  {
    var p := st.parent.value;
    var invalid := Validate(p);
    if invalid.Some? then
      if ReportInvalid in faults then Outcome(st, Err(Failed(ReportInvalid)), [])
      else Outcome(PutStatus(st, WithCondition(p, TypeAvailable, InvalidCondition(invalid.value))),
                   Err(Invalid(invalid.value)), [ReportInvalid])
    else FetchAndSync(st, faults)
  }

  /** The pass after validation: fetch or create both children, then decide
      and sync. Existing children are used as read, so a pass over two
      existing children records the decision computed from them. */
  function FetchAndSync(st: Store, faults: set<Step>): (out: Outcome)
    requires Valid(st) && Dereferenceable(st)
    ensures Framed(st, out.store)
    ensures ChildrenFromTemplates(st, out.store)
    ensures WritesAccountFor(st, out)
    ensures out.result.Ok? ==> Converged(out.store) && EndsWithSuccess(out.writes)
    ensures out.result.Ok? && st.vpa.Some? && st.hpa.Some? ==>
              Recorded(out.store.parent.value) == Some(ScalingDecision(false, st.parent.value, st.vpa.value, st.hpa.value))
    ensures FailuresSurface(out, faults)
    ensures UnreportedFailureKeepsParent(st, out)
    ensures ConditionsKept(st, out)
    ensures var vf := GetOrCreateVpa(st.vpa, st.parent.value, faults);
            vf.FetchFailed? ==> out == FetchFailure(st, vf.at, faults)
    ensures var vf := GetOrCreateVpa(st.vpa, st.parent.value, faults);
            var hf := GetOrCreateHpa(st.hpa, st.parent.value, faults);
            vf.Fetched? && hf.FetchFailed? ==>
              var failed := FetchFailure(st.(vpa := Some(vf.obj)), hf.at, faults);
              out.result == failed.result && out.store == failed.store
  {
    var vf := GetOrCreateVpa(st.vpa, st.parent.value, faults);
    if vf.FetchFailed? then FetchFailure(st, vf.at, faults)
    else
      var st1 := st.(vpa := Some(vf.obj));
      var w := if vf.created then [CreateChild(VpaKind)] else [];
      var rest := FetchHpaAndSync(st1, vf.created, faults);
      PrependChildWrites(st, st1, w, rest);
      rest.(writes := w + rest.writes)
  }

  /** The pass once the VPA is at hand: fetch or create the HPA, then decide
      and sync. `vpaCreated` says whether the VPA was created in this pass. */
  function FetchHpaAndSync(st: Store, vpaCreated: bool, faults: set<Step>): (out: Outcome)
    requires Valid(st) && st.vpa.Some? && st.parent.value.spec.vpa.updatePolicy.Some?
    requires !vpaCreated && st.hpa.Some? ==> DecisionInputsDefined(false, st.parent.value, st.vpa.value, st.hpa.value)
    ensures Framed(st, out.store) && out.store.vpa.Some?
    ensures ChildrenFromTemplates(st, out.store)
    ensures WritesAccountFor(st, out) && CreateChild(VpaKind) !in out.writes
    ensures out.result.Ok? ==> Converged(out.store) && EndsWithSuccess(out.writes)
    ensures out.result.Ok? && !vpaCreated && st.hpa.Some? ==>
              Recorded(out.store.parent.value) == Some(ScalingDecision(false, st.parent.value, st.vpa.value, st.hpa.value))
    ensures FailuresSurface(out, faults)
    ensures UnreportedFailureKeepsParent(st, out)
    ensures ConditionsKept(st, out)
    ensures var hf := GetOrCreateHpa(st.hpa, st.parent.value, faults);
            hf.FetchFailed? ==> out == FetchFailure(st, hf.at, faults)
  {
    var hf := GetOrCreateHpa(st.hpa, st.parent.value, faults);
    if hf.FetchFailed? then FetchFailure(st, hf.at, faults)
    else SyncFetched(st, hf, vpaCreated, faults)
  }

  /** Both children at hand, the HPA as `hf` fetched or created it: decide
      and sync, after the HPA's create when there was one. */
  function SyncFetched(st: Store, hf: Fetch<Hpa>, vpaCreated: bool, faults: set<Step>): (out: Outcome)
    requires Valid(st) && st.vpa.Some? && st.parent.value.spec.vpa.updatePolicy.Some?
    requires hf == GetOrCreateHpa(st.hpa, st.parent.value, faults) && hf.Fetched?
    requires !vpaCreated && st.hpa.Some? ==> DecisionInputsDefined(false, st.parent.value, st.vpa.value, st.hpa.value)
    ensures Framed(st, out.store) && out.store.vpa.Some?
    ensures ChildrenFromTemplates(st, out.store)
    ensures WritesAccountFor(st, out) && CreateChild(VpaKind) !in out.writes
    ensures out.result.Ok? ==> Converged(out.store) && EndsWithSuccess(out.writes)
    ensures out.result.Ok? ==>
              Recorded(out.store.parent.value) == Some(ScalingDecision(vpaCreated || hf.created, st.parent.value, st.vpa.value, hf.obj))
    ensures FailuresSurface(out, faults)
    ensures UnreportedFailureKeepsParent(st, out)
    ensures ConditionsKept(st, out)
  {
    var st1 := st.(hpa := Some(hf.obj));
    var w := if hf.created then [CreateChild(HpaKind)] else [];
    var synced := DecideAndSync(st1, vpaCreated || hf.created, faults);
    PrependChildWrites(st, st1, w, synced);
    synced.(writes := w + synced.writes)
  }

  /** A failed fetch-or-create; only a failure to build the owner linkage is
      reported on the parent's status before the error is returned. */
  function FetchFailure(st: Store, at: Step, faults: set<Step>): (out: Outcome)
    requires st.parent.Some?
    ensures out.result.Err?
    ensures Framed(st, out.store) && out.store.vpa == st.vpa && out.store.hpa == st.hpa
    ensures WritesAccountFor(st, out)
    ensures UnreportedFailureKeepsParent(st, out)
    ensures ConditionsKeptExcept(st, out.store, {TypeAvailable})
    ensures !at.NewOwnerRef? ==> out == Outcome(st, Err(Failed(at)), [])
    ensures at.NewOwnerRef? && ReportDefinition(at.kind) in faults ==>
              out == Outcome(st, Err(Failed(ReportDefinition(at.kind))), [])
    ensures at.NewOwnerRef? && ReportDefinition(at.kind) !in faults ==>
              && out.result == Err(Failed(at))
              && out.writes == [ReportDefinition(at.kind)]
              && TypeAvailable in out.store.parent.value.status.conditions
              && var avail := out.store.parent.value.status.conditions[TypeAvailable];
              && avail.status == ConditionFalse
              && DefinitionFailed(at.kind, st.parent.value) <= avail.message
  {
    if at.NewOwnerRef? then
      if ReportDefinition(at.kind) in faults then Outcome(st, Err(Failed(ReportDefinition(at.kind))), [])
      else Outcome(PutStatus(st, WithCondition(st.parent.value, TypeAvailable, DefinitionCondition(at.kind, st.parent.value, at))),
                   Err(Failed(at)), [ReportDefinition(at.kind)])
    else Outcome(st, Err(Failed(at)), [])
  }

  function DecideAndSync(st: Store, justCreated: bool, faults: set<Step>): (out: Outcome)
    requires st.parent.Some? && st.vpa.Some? && st.hpa.Some?
    requires st.parent.value.spec.vpa.updatePolicy.Some?
    requires DecisionInputsDefined(justCreated, st.parent.value, st.vpa.value, st.hpa.value)
    ensures Framed(st, out.store)
    ensures ChildrenFromTemplates(st, out.store)
    ensures WritesAccountFor(st, out) && CreateChild(VpaKind) !in out.writes
    ensures out.result.Ok? ==> Converged(out.store) && EndsWithSuccess(out.writes)
    ensures out.result.Ok? ==> Recorded(out.store.parent.value)
                               == Some(ScalingDecision(justCreated, st.parent.value, st.vpa.value, st.hpa.value))
    ensures FailuresSurface(out, faults)
    ensures UnreportedFailureKeepsParent(st, out)
    ensures ConditionsKept(st, out)
    ensures var d := ScalingDecision(justCreated, st.parent.value, st.vpa.value, st.hpa.value);
            var vs := ReconcileVpa(st.parent.value, st.vpa.value, d == VPA, faults);
            vs.SyncFailed? ==> out == Outcome(st, Err(Failed(vs.at)), [])
    ensures var d := ScalingDecision(justCreated, st.parent.value, st.vpa.value, st.hpa.value);
            var vs := ReconcileVpa(st.parent.value, st.vpa.value, d == VPA, faults);
            var hs := ReconcileHpa(st.parent.value, st.hpa.value, d == HPA, faults);
            vs.Synced? && hs.SyncFailed? ==>
              && out.result == Err(Failed(hs.at))
              && out.store == st.(vpa := Some(vs.obj))
  {
    SyncAndReport(st, ScalingDecision(justCreated, st.parent.value, st.vpa.value, st.hpa.value), faults)
  }

  /** Sync both children to the templates of decision `d`, VPA first, and
      record `d` and success in one final status write. The pass stops at
      the first failing step and returns its error. */
  function SyncAndReport(st: Store, d: Strategy, faults: set<Step>): (out: Outcome)
    requires st.parent.Some? && st.vpa.Some? && st.hpa.Some?
    requires st.parent.value.spec.vpa.updatePolicy.Some?
    ensures Framed(st, out.store)
    ensures ChildrenFromTemplates(st, out.store)
    ensures WritesAccountFor(st, out) && CreateChild(VpaKind) !in out.writes
    ensures out.result.Ok? ==> Converged(out.store) && EndsWithSuccess(out.writes)
    ensures out.result.Ok? ==> Recorded(out.store.parent.value) == Some(d)
    ensures FailuresSurface(out, faults)
    ensures UnreportedFailureKeepsParent(st, out)
    ensures ConditionsKept(st, out)
    ensures var vs := ReconcileVpa(st.parent.value, st.vpa.value, d == VPA, faults);
            vs.SyncFailed? ==> out == Outcome(st, Err(Failed(vs.at)), [])
    ensures var vs := ReconcileVpa(st.parent.value, st.vpa.value, d == VPA, faults);
            var hs := ReconcileHpa(st.parent.value, st.hpa.value, d == HPA, faults);
            vs.Synced? && hs.SyncFailed? ==>
              && out.result == Err(Failed(hs.at))
              && out.store == st.(vpa := Some(vs.obj))
  {
    var vs := ReconcileVpa(st.parent.value, st.vpa.value, d == VPA, faults);
    if vs.SyncFailed? then Outcome(st, Err(Failed(vs.at)), [])
    else
      var st1 := st.(vpa := Some(vs.obj));
      var w := if vs.wrote then [UpdateChild(VpaKind)] else [];
      var rest := SyncHpaAndReport(st1, d, faults);
      PrependChildWrites(st, st1, w, rest);
      rest.(writes := w + rest.writes)
  }

  /** The second half of the sync, once the VPA carries its template: sync
      the HPA, then record `d` and success in one status write. */
  function SyncHpaAndReport(st: Store, d: Strategy, faults: set<Step>): (out: Outcome)
    requires st.parent.Some? && st.vpa.Some? && st.hpa.Some?
    requires st.parent.value.spec.vpa.updatePolicy.Some?
    requires st.vpa.value.spec == VpaTemplate(st.parent.value, d == VPA).spec
    ensures Framed(st, out.store) && out.store.vpa == st.vpa
    ensures ChildrenFromTemplates(st, out.store)
    ensures WritesAccountFor(st, out) && UpdateChild(VpaKind) !in out.writes && CreateChild(VpaKind) !in out.writes
    ensures out.result.Ok? ==> Converged(out.store) && EndsWithSuccess(out.writes)
    ensures out.result.Ok? ==> Recorded(out.store.parent.value) == Some(d)
    ensures FailuresSurface(out, faults)
    ensures UnreportedFailureKeepsParent(st, out)
    ensures ConditionsKept(st, out)
    ensures var hs := ReconcileHpa(st.parent.value, st.hpa.value, d == HPA, faults);
            hs.SyncFailed? ==> out == Outcome(st, Err(Failed(hs.at)), [])
  {
    var p := st.parent.value;
    var hs := ReconcileHpa(p, st.hpa.value, d == HPA, faults);
    if hs.SyncFailed? then Outcome(st, Err(Failed(hs.at)), [])
    else
      var st1 := st.(hpa := Some(hs.obj));
      var w := if hs.wrote then [UpdateChild(HpaKind)] else [];
      if ReportSuccess in faults then Outcome(st1, Err(Failed(ReportSuccess)), w)
      else
        var decided := WithCondition(p, TypeScalingDecision, DecisionCondition(d));
        Outcome(PutStatus(st1, WithCondition(decided, TypeAvailable, SuccessCondition)), Ok, w + [ReportSuccess])
  }
}

=== FILE: crane_api.dfy ===
/** The parent resource, CranePodAutoscaler, as the controller and the
    template generators use it: an embedded HPA spec, an embedded VPA spec,
    the switch-back threshold, and a status made of conditions. */
module CraneApi {
  import opened Kube

  datatype Behavior = Behavior(vpaCapacityThresholdPercent: int)

  datatype CraneSpec = CraneSpec(hpa: HpaSpec, vpa: VpaSpec, behavior: Behavior)

  datatype CraneStatus = CraneStatus(conditions: Conditions)

  datatype CranePodAutoscaler = CranePodAutoscaler(meta: ObjectMeta, spec: CraneSpec, status: CraneStatus)

  /** The owner reference `SetControllerReference` attaches to a child of `p`. */
  function ControllerRef(p: CranePodAutoscaler): (r: OwnerReference)
  {
    OwnerReference("CranePodAutoscaler", p.meta.name)
  }
}

=== FILE: decision.dfy ===
/** The scaling-decision state machine with two states, HPA and VPA.

    The recorded reason of the previous ScalingDecision condition is the
    machine's only memory. Bootstrap (a child was just created, or no
    decision was ever recorded) selects HPA. From VPA the machine leaves
    as soon as the worst utilization is strictly above the threshold; from
    anything else it moves to VPA only when the HPA sits at its floor and
    the utilization is at or below the threshold. */
module Decision {
  import opened Optional
  import opened Ratios

  const RefVpa: string := "VPA"
  const RefHpa: string := "HPA"

  datatype Strategy = HPA | VPA {
    /** The reason string recorded for this strategy. */
    function Name(): (s: string)
      ensures s == RefHpa || s == RefVpa
      ensures (s == RefVpa) <==> VPA?
    {
      match this
      case HPA => RefHpa
      case VPA => RefVpa
    }
  }

  /** `worst > thresholdPercent / 100`, exactly. */
  predicate OverThreshold(worst: Ratio, thresholdPercent: int)
    requires worst.Valid()
  {
    Lt(Ratio(thresholdPercent, 100), worst)
  }

  function Decide(justCreated: bool, previous: Option<string>, worst: Ratio, thresholdPercent: int,
                  desiredReplicas: int, minReplicas: int): (d: Strategy)
    requires worst.Valid()
    ensures justCreated || previous.None? ==> d == HPA
    ensures !justCreated && previous == Some(RefVpa) ==>
              (d == HPA <==> OverThreshold(worst, thresholdPercent))
    ensures !justCreated && previous.Some? && previous != Some(RefVpa) ==>
              (d == VPA <==> desiredReplicas <= minReplicas && !OverThreshold(worst, thresholdPercent))
  {
    if justCreated then HPA
    else if previous.None? then HPA
    else if previous.value == RefVpa then
      (if OverThreshold(worst, thresholdPercent) then HPA else VPA)
    else if desiredReplicas <= minReplicas && !OverThreshold(worst, thresholdPercent) then VPA
    else HPA
  }

  /** Safety: whatever the history, VPA is never selected while the worst
      utilization is above the threshold. */
  lemma VpaOnlyWithinThreshold(justCreated: bool, previous: Option<string>, worst: Ratio,
                               thresholdPercent: int, desiredReplicas: int, minReplicas: int)
    requires worst.Valid()
    requires Decide(justCreated, previous, worst, thresholdPercent, desiredReplicas, minReplicas) == VPA
    ensures !OverThreshold(worst, thresholdPercent)
    ensures !justCreated && previous.Some?
  {
  }

  /** Control is handed from HPA to VPA only when the HPA wants no more than its floor. */
  lemma HandBackOnlyAtFloor(previous: Option<string>, worst: Ratio, thresholdPercent: int,
                            desiredReplicas: int, minReplicas: int)
    requires worst.Valid() && previous.Some? && previous != Some(RefVpa)
    requires Decide(false, previous, worst, thresholdPercent, desiredReplicas, minReplicas) == VPA
    ensures desiredReplicas <= minReplicas
  {
  }

  /** The bootstrap decision reads neither the utilization nor the replica counts. */
  lemma BootstrapIgnoresSignals(justCreated: bool, previous: Option<string>,
                                w1: Ratio, t1: int, d1: int, m1: int,
                                w2: Ratio, t2: int, d2: int, m2: int)
    requires w1.Valid() && w2.Valid()
    requires justCreated || previous.None?
    ensures Decide(justCreated, previous, w1, t1, d1, m1) == Decide(justCreated, previous, w2, t2, d2, m2) == HPA
  {
  }

  /** The hysteresis boundary: exactly at the threshold a VPA decision is
      kept, and an HPA at its floor hands over to VPA. */
  lemma ThresholdBoundary(thresholdPercent: int, replicas: int)
    ensures Decide(false, Some(RefVpa), Ratio(thresholdPercent, 100), thresholdPercent, replicas, replicas) == VPA
    ensures Decide(false, Some(RefHpa), Ratio(thresholdPercent, 100), thresholdPercent, replicas, replicas) == VPA
  {
  }

  /** No flapping: replaying a non-bootstrap decision with the same signals
      reproduces it. The replica floor may differ on the replay only when
      the first decision was taken from VPA, where it was not read. */
  lemma {:induction false} DecisionSettles(previous: Option<string>, worst: Ratio, thresholdPercent: int,
                                           desiredReplicas: int, min1: int, min2: int)
    requires worst.Valid() && previous.Some?
    requires previous != Some(RefVpa) ==> min1 == min2
    ensures var d := Decide(false, previous, worst, thresholdPercent, desiredReplicas, min1);
            Decide(false, Some(d.Name()), worst, thresholdPercent, desiredReplicas, min2) == d
  {
    var d := Decide(false, previous, worst, thresholdPercent, desiredReplicas, min1);
    if d == VPA {
      VpaOnlyWithinThreshold(false, previous, worst, thresholdPercent, desiredReplicas, min1);
    }
  }

  /** Worked scenarios with an 80 percent threshold and a floor of 2 replicas. */
  lemma ThresholdScenarios()
    ensures Decide(false, Some(RefHpa), Ratio(1, 2), 80, 2, 2) == VPA
    ensures Decide(false, Some(RefVpa), Ratio(95, 100), 80, 2, 2) == HPA
    ensures Decide(false, Some(RefHpa), Ratio(1, 2), 80, 3, 2) == HPA
    ensures Decide(true, Some(RefVpa), Ratio(1, 2), 80, 2, 2) == HPA
  {
  }
}

=== FILE: generators.dfy ===
/** The four child templates derived from a CranePodAutoscaler.

    The enabled templates hand the parent's embedded spec through as it is;
    the disabled ones neutralise it: a disabled VPA stops evicting pods
    (update mode Off), a disabled HPA cannot scale above its floor
    (maxReplicas pinned to minReplicas). Each template is named and
    namespaced like the parent and carries no owner and an empty status. */
module Generators {
  import opened Optional
  import opened Kube
  import opened CraneApi

  function ChildMeta(p: CranePodAutoscaler): (m: ObjectMeta)
    ensures m.name == p.meta.name && m.namespace == p.meta.namespace
    ensures m.controller.None?
  {
    ObjectMeta(p.meta.name, p.meta.namespace, None)
  }

  function GenerateEnabledVpa(p: CranePodAutoscaler): (v: Vpa)
    ensures v.meta.name == p.meta.name && v.meta.namespace == p.meta.namespace
    ensures v.spec == p.spec.vpa
    ensures v.status == EmptyVpaStatus
  {
    Child(ChildMeta(p), p.spec.vpa, EmptyVpaStatus)
  }

  /** Dereferences the parent's update policy, hence the precondition. */
  function GenerateDisabledVpa(p: CranePodAutoscaler): (v: Vpa)
    requires p.spec.vpa.updatePolicy.Some?
    ensures v.meta.name == p.meta.name && v.meta.namespace == p.meta.namespace
    ensures v.spec.updatePolicy.Some? && v.spec.updatePolicy.value.updateMode == Some(Off)
    ensures v.spec.updatePolicy.value.minReplicas == p.spec.vpa.updatePolicy.value.minReplicas
    ensures v.spec.(updatePolicy := p.spec.vpa.updatePolicy) == p.spec.vpa
    ensures v.status == EmptyVpaStatus
  {
    var policy := p.spec.vpa.updatePolicy.value;
    Child(ChildMeta(p), p.spec.vpa.(updatePolicy := Some(policy.(updateMode := Some(Off)))), EmptyVpaStatus)
  }

  function GenerateEnabledHpa(p: CranePodAutoscaler): (h: Hpa)
    ensures h.meta.name == p.meta.name && h.meta.namespace == p.meta.namespace
    ensures h.spec == p.spec.hpa
    ensures h.status == EmptyHpaStatus
  {
    Child(ChildMeta(p), p.spec.hpa, EmptyHpaStatus)
  }

  /** The replica floor of an HPA spec, 1 when none is set. */
  function EffectiveMinReplicas(s: HpaSpec): (r: int)
  {
    if s.minReplicas.None? then 1 else s.minReplicas.value
  }

  function GenerateDisabledHpa(p: CranePodAutoscaler): (h: Hpa)
    ensures h.meta.name == p.meta.name && h.meta.namespace == p.meta.namespace
    ensures p.spec.hpa.minReplicas.Some? ==> h.spec.maxReplicas == p.spec.hpa.minReplicas.value
    ensures p.spec.hpa.minReplicas.None? ==> h.spec.maxReplicas == 1
    ensures h.spec.minReplicas == p.spec.hpa.minReplicas
    ensures h.spec.(maxReplicas := p.spec.hpa.maxReplicas) == p.spec.hpa
    ensures h.status == EmptyHpaStatus
  {
    Child(ChildMeta(p), p.spec.hpa.(maxReplicas := EffectiveMinReplicas(p.spec.hpa)), EmptyHpaStatus)
  }

  /** The template a child gets for a given activity. */
  function VpaTemplate(p: CranePodAutoscaler, active: bool): (r: Vpa)
    requires active || p.spec.vpa.updatePolicy.Some?
  {
    if active then GenerateEnabledVpa(p) else GenerateDisabledVpa(p)
  }

  function HpaTemplate(p: CranePodAutoscaler, active: bool): (r: Hpa)
  {
    if active then GenerateEnabledHpa(p) else GenerateDisabledHpa(p)
  }

  /** Switching the VPA between active and passive changes nothing exactly
      when the user already asked for update mode Off. */
  lemma VpaTemplatesCoincideIffOff(p: CranePodAutoscaler)
    requires p.spec.vpa.updatePolicy.Some?
    ensures GenerateEnabledVpa(p) == GenerateDisabledVpa(p)
            <==> p.spec.vpa.updatePolicy.value.updateMode == Some(Off)
  {
    if GenerateEnabledVpa(p) == GenerateDisabledVpa(p) {
      assert p.spec.vpa.updatePolicy == GenerateDisabledVpa(p).spec.updatePolicy;
    }
  }

  /** Switching the HPA between active and passive changes nothing exactly
      when its ceiling already equals its floor. */
  lemma HpaTemplatesCoincideIffPinned(p: CranePodAutoscaler)
    ensures GenerateEnabledHpa(p) == GenerateDisabledHpa(p)
            <==> p.spec.hpa.maxReplicas == EffectiveMinReplicas(p.spec.hpa)
  {
    if GenerateEnabledHpa(p) == GenerateDisabledHpa(p) {
      assert p.spec.hpa.maxReplicas == GenerateDisabledHpa(p).spec.maxReplicas;
    }
  }

  /** A disabled HPA with a floor cannot scale at all: its range is that one value. */
  lemma DisabledHpaIsPinned(p: CranePodAutoscaler)
    requires p.spec.hpa.minReplicas.Some?
    ensures var s := GenerateDisabledHpa(p).spec;
            s.minReplicas.Some? && s.maxReplicas == s.minReplicas.value
  {
  }

  /** Disabling is idempotent: a parent whose embedded specs are already the
      disabled templates yields the same templates again. */
  lemma DisablingIsIdempotent(p: CranePodAutoscaler)
    requires p.spec.vpa.updatePolicy.Some?
    ensures var q := p.(spec := p.spec.(vpa := GenerateDisabledVpa(p).spec, hpa := GenerateDisabledHpa(p).spec));
            GenerateDisabledVpa(q) == GenerateDisabledVpa(p)
            && GenerateDisabledHpa(q) == GenerateDisabledHpa(p)
  {
  }
}

=== FILE: kube.dfy ===
/** The slices of the Kubernetes API objects the controller reads and writes:
    object metadata, the VerticalPodAutoscaler (autoscaling.k8s.io/v1), the
    HorizontalPodAutoscaler (autoscaling/v2) and status conditions. Fields the
    controller never inspects are kept as opaque values so that "everything
    else is copied unchanged" can be stated. */
module Kube {
  import opened Optional

  datatype CrossVersionObjectReference =
    CrossVersionObjectReference(kind: string, name: string, apiVersion: string)

  /** The controller owner reference that cascades deletion of a child. */
  datatype OwnerReference = OwnerReference(kind: string, name: string)

  datatype ObjectMeta = ObjectMeta(name: string, namespace: string, controller: Option<OwnerReference>)

  /** A resource list reduced to the two quantities the controller reads:
      CPU in milli-units and memory in bytes. */
  datatype Resources = Resources(cpuMilli: int, memoryBytes: int)

  // ---- VerticalPodAutoscaler ----

  datatype UpdateMode = Off | Initial | Recreate | Auto

  datatype PodUpdatePolicy = PodUpdatePolicy(updateMode: Option<UpdateMode>, minReplicas: Option<int>)

  datatype ContainerResourcePolicy =
    ContainerResourcePolicy(containerName: string, minAllowed: Resources, maxAllowed: Resources)

  datatype VpaSpec = VpaSpec(
    targetRef: Option<CrossVersionObjectReference>,
    updatePolicy: Option<PodUpdatePolicy>,
    resourcePolicy: seq<ContainerResourcePolicy>,
    recommenders: seq<string>)

  datatype RecommendedContainerResources = RecommendedContainerResources(
    containerName: string,
    target: Resources,
    lowerBound: Resources,
    upperBound: Resources,
    uncappedTarget: Resources)

  datatype RecommendedPodResources =
    RecommendedPodResources(containerRecommendations: seq<RecommendedContainerResources>)

  datatype VpaStatus = VpaStatus(recommendation: Option<RecommendedPodResources>, conditions: seq<string>)

  // ---- HorizontalPodAutoscaler ----

  datatype MetricSpec = MetricSpec(metricType: string, name: string, averageUtilization: Option<int>)

  datatype HpaBehavior =
    HpaBehavior(scaleUpStabilizationSeconds: Option<int>, scaleDownStabilizationSeconds: Option<int>)

  datatype HpaSpec = HpaSpec(
    scaleTargetRef: CrossVersionObjectReference,
    minReplicas: Option<int>,
    maxReplicas: int,
    metrics: seq<MetricSpec>,
    behavior: Option<HpaBehavior>)

  datatype HpaStatus = HpaStatus(currentReplicas: int, desiredReplicas: int, conditions: seq<string>)

  // ---- Managed children ----

  /** Both child kinds share one shape: metadata, a spec derived from the
      parent, and a status owned by the external autoscaler. */
  datatype Child<S, T> = Child(meta: ObjectMeta, spec: S, status: T)

  type Vpa = Child<VpaSpec, VpaStatus>
  type Hpa = Child<HpaSpec, HpaStatus>

  /** The status a freshly generated child carries before any autoscaler has observed it. */
  const EmptyVpaStatus: VpaStatus := VpaStatus(None, [])
  const EmptyHpaStatus: HpaStatus := HpaStatus(0, 0, [])

  // ---- Status conditions ----

  datatype ConditionStatus = ConditionTrue | ConditionFalse | ConditionUnknown

  datatype Condition = Condition(status: ConditionStatus, reason: string, message: string)

  /** Conditions keyed by their type, at most one per type. */
  type Conditions = map<string, Condition>

  /** Insert or replace the condition of the given type; every other type keeps its entry. */
  function SetStatusCondition(cs: Conditions, condType: string, c: Condition): (r: Conditions)
    ensures condType in r && r[condType] == c
    ensures r.Keys == cs.Keys + {condType}
    ensures forall t :: t in cs && t != condType ==> r[t] == cs[t]
  {
    cs[condType := c]
  }

  function FindStatusCondition(cs: Conditions, condType: string): (r: Option<Condition>)
    ensures r.Some? <==> condType in cs
    ensures r.Some? ==> r.value == cs[condType]
  {
    if condType in cs then Some(cs[condType]) else None
  }

  /** Setting a condition to the value it already has leaves the list as it was. */
  lemma SetStatusConditionUnchanged(cs: Conditions, condType: string, c: Condition)
    requires condType in cs && cs[condType] == c
    ensures SetStatusCondition(cs, condType, c) == cs
  {
  }
}

=== FILE: object_store.dfy ===
/** The external object store as the controller sees it during one pass:
    one slot per kind at the request's namespace and name, and the list of
    store calls and fallible local steps that a pass can perform. Every such
    step may fail; which ones fail is a parameter of the pass. */
module ObjectStore {
  import opened Optional
  import opened Kube
  import opened CraneApi
  import opened Decision

  datatype ChildKind = VpaKind | HpaKind {
    function Name(): (r: string)
    {
      match this
      case VpaKind => RefVpa
      case HpaKind => RefHpa
    }
  }

  /** The steps of a pass that can fail, each performed at most once per pass. */
  datatype Step =
    | GetParent                      // read of the CranePodAutoscaler
    | InitStatus                     // status write of the initial Unknown condition
    | Refetch                        // re-read after that write
    | ReportInvalid                  // status write after a validation failure
    | GetChild(kind: ChildKind)      // read of a child
    | NewOwnerRef(kind: ChildKind)   // owner reference on a child about to be created
    | ReportDefinition(kind: ChildKind) // status write after that failed
    | CreateChild(kind: ChildKind)   // create of an absent child
    | SyncOwnerRef(kind: ChildKind)  // owner reference on the desired child during sync
    | UpdateChild(kind: ChildKind)   // write of a child whose spec differs
    | ReportSuccess                  // final status write

  datatype Store = Store(parent: Option<CranePodAutoscaler>, vpa: Option<Vpa>, hpa: Option<Hpa>)

  /** Whether a successful step changed the store. */
  predicate IsWrite(s: Step)
  {
    s.InitStatus? || s.ReportInvalid? || s.ReportDefinition? || s.CreateChild? || s.UpdateChild? || s.ReportSuccess?
  }

  /** The writes that touched a child. */
  function ChildWrites(writes: seq<Step>): (r: seq<Step>)
    ensures forall s :: s in r <==> s in writes && (s.CreateChild? || s.UpdateChild?)
  {
    if writes == [] then []
    else if writes[0].CreateChild? || writes[0].UpdateChild? then [writes[0]] + ChildWrites(writes[1..])
    else ChildWrites(writes[1..])
  }
}

=== FILE: optional.dfy ===
/** The nil-or-value shape of the Go pointers and optional fields this model reads. */
module Optional {

  /** `None` stands for a nil pointer or an unset optional field. */
  datatype Option<+T> = None | Some(value: T)
}

=== FILE: passes.dfy ===
/** Properties of whole reconciliation passes and of passes in sequence:
    what a pass does when the parent is invalid, that a fault-free pass on a
    valid parent succeeds, what the very first pass creates, and that
    replaying a pass changes nothing. */
module Passes {
  import opened Optional
  import opened Kube
  import opened CraneApi
  import opened Generators
  import opened Validation
  import opened Decision
  import opened ObjectStore
  import opened Controller

  /** A parent whose two target references disagree is reported and never
      reaches either child. Without failing store calls the pass returns the
      validation error and leaves Available=False with its message. */
  lemma InvalidParentTouchesNoChild(st: Store, faults: set<Step>)
    requires Dereferenceable(st) && GetParent !in faults && st.parent.Some?
    requires st.parent.value.spec.vpa.targetRef.value != st.parent.value.spec.hpa.scaleTargetRef
    ensures var out := Reconcile(st, faults);
            && out.result.Err?
            && out.store.vpa == st.vpa && out.store.hpa == st.hpa
            && ChildWrites(out.writes) == []
    ensures faults == {} ==>
              var out := Reconcile(st, faults);
              && out.result.Err? && out.result.error.Invalid?
              && TargetRefMismatch <= out.result.error.message
              && var avail := out.store.parent.value.status.conditions[TypeAvailable];
              && avail.status == ConditionFalse
              && ValidationFailed + TargetRefMismatch <= avail.message
  {
    var out := Reconcile(st, faults);
    if faults == {} {
      var msg := Validate(st.parent.value).value;
      assert out.result == Err(Invalid(msg));
      var avail := out.store.parent.value.status.conditions[TypeAvailable];
      assert avail == InvalidCondition(msg);
      assert (ValidationFailed + msg)[..|ValidationFailed + TargetRefMismatch|] == ValidationFailed + TargetRefMismatch;
    }
  }

  /** With no failing call, a present and valid parent always gets a
      successful pass. */
  lemma FaultFreePassSucceeds(st: Store)
    requires Dereferenceable(st) && st.parent.Some?
    requires Valid(st)
    ensures Reconcile(st, {}).result.Ok?
  {
    var p := st.parent.value;
    if p.status.conditions == map[] {
      var seeded := PutStatus(st, WithCondition(p, TypeAvailable, StartingCondition));
      FetchAndSyncSucceeds(seeded);
      assert Reconcile(st, {}).result == ValidateAndSync(seeded, {}).result;
    } else {
      FetchAndSyncSucceeds(st);
    }
  }

  /** After validation, a fault-free pass always succeeds. */
  lemma FetchAndSyncSucceeds(st: Store)
    requires Valid(st) && Dereferenceable(st)
    ensures FetchAndSync(st, {}).result.Ok?
    ensures ValidateAndSync(st, {}).result.Ok?
  {
    var p := st.parent.value;
    var vf := Children.GetOrCreateVpa(st.vpa, p, {});
    var hf := Children.GetOrCreateHpa(st.hpa, p, {});
    assert vf.Fetched? && hf.Fetched?;
  }

  /** A pass that created a child, or that found no recorded decision,
      records HPA, whatever the utilization and replica counts say. */
  lemma BootstrapPassSelectsHpa(st: Store, faults: set<Step>)
    requires Dereferenceable(st) && st.parent.Some?
    requires st.vpa.None? || st.hpa.None? || TypeScalingDecision !in st.parent.value.status.conditions
    requires Reconcile(st, faults).result.Ok?
    ensures Recorded(Reconcile(st, faults).store.parent.value) == Some(HPA)
  {
  }

  /** When both children already carry the templates of the decision the
      pass is about to take, the decide-and-sync phase writes only the
      final status. */
  lemma {:induction false} SyncedChildrenNeedNoWrite(st: Store, justCreated: bool)
    requires st.parent.Some? && st.vpa.Some? && st.hpa.Some?
    requires st.parent.value.spec.vpa.updatePolicy.Some?
    requires DecisionInputsDefined(justCreated, st.parent.value, st.vpa.value, st.hpa.value)
    requires var p := st.parent.value;
             var d := ScalingDecision(justCreated, p, st.vpa.value, st.hpa.value);
             && st.vpa.value.spec == VpaTemplate(p, d == VPA).spec
             && st.hpa.value.spec == HpaTemplate(p, d == HPA).spec
    ensures var out := DecideAndSync(st, justCreated, {});
            && out.result.Ok?
            && out.writes == [ReportSuccess]
            && out.store.vpa == st.vpa && out.store.hpa == st.hpa
  {
    var p := st.parent.value;
    var d := ScalingDecision(justCreated, p, st.vpa.value, st.hpa.value);
    assert Children.ReconcileVpa(p, st.vpa.value, d == VPA, {}) == Children.Synced(st.vpa.value, false);
    assert Children.ReconcileHpa(p, st.hpa.value, d == HPA, {}) == Children.Synced(st.hpa.value, false);
  }

  /** The first pass over a valid parent with no children creates the VPA
      disabled and the HPA enabled, both owned by the parent, decides HPA,
      and its only writes are the two creates and the status. */
  lemma FirstPassCreatesBoth(st: Store)
    requires Dereferenceable(st) && st.parent.Some? && st.vpa.None? && st.hpa.None?
    requires Valid(st)
    ensures var out := Reconcile(st, {});
            var p := st.parent.value;
            && out.result.Ok?
            && Recorded(out.store.parent.value) == Some(HPA)
            && out.store.vpa == Some(Child(ObjectMeta(p.meta.name, p.meta.namespace, Some(ControllerRef(p))),
                                           GenerateDisabledVpa(p).spec, EmptyVpaStatus))
            && out.store.hpa == Some(Child(ObjectMeta(p.meta.name, p.meta.namespace, Some(ControllerRef(p))),
                                           p.spec.hpa, EmptyHpaStatus))
            && out.writes == (if p.status.conditions == map[] then [InitStatus] else [])
                             + [CreateChild(VpaKind), CreateChild(HpaKind), ReportSuccess]
  {
    var p := st.parent.value;
    if p.status.conditions == map[] {
      var seeded := PutStatus(st, WithCondition(p, TypeAvailable, StartingCondition));
      assert Dereferenceable(seeded);
      FirstSyncCreatesBoth(seeded);
      var rest := ValidateAndSync(seeded, {});
      assert Reconcile(st, {}) == rest.(writes := [InitStatus] + rest.writes);
    } else {
      FirstSyncCreatesBoth(st);
      assert Reconcile(st, {}) == ValidateAndSync(st, {});
    }
  }

  /** The part of the first pass after the status is seeded. */
  lemma FirstSyncCreatesBoth(st: Store)
    requires Dereferenceable(st) && st.parent.Some? && st.vpa.None? && st.hpa.None?
    requires Valid(st)
    ensures var out := ValidateAndSync(st, {});
            var p := st.parent.value;
            && out.result.Ok?
            && Recorded(out.store.parent.value) == Some(HPA)
            && out.store.vpa == Some(Child(ObjectMeta(p.meta.name, p.meta.namespace, Some(ControllerRef(p))),
                                           GenerateDisabledVpa(p).spec, EmptyVpaStatus))
            && out.store.hpa == Some(Child(ObjectMeta(p.meta.name, p.meta.namespace, Some(ControllerRef(p))),
                                           p.spec.hpa, EmptyHpaStatus))
            && out.writes == [CreateChild(VpaKind), CreateChild(HpaKind), ReportSuccess]
  {
    var p := st.parent.value;
    var vf := Children.GetOrCreateVpa(st.vpa, p, {});
    var hf := Children.GetOrCreateHpa(st.hpa, p, {});
    var st2 := st.(vpa := Some(vf.obj), hpa := Some(hf.obj));
    SyncedChildrenNeedNoWrite(st2, true);
  }

  /** A converged store whose next fault-free pass confirms the recorded
      decision sees no child write: both specs already equal the templates. */
  lemma SameDecisionWritesNothing(st: Store)
    requires Dereferenceable(st) && Converged(st)
    requires Reconcile(st, {}).result.Ok?
    requires Recorded(Reconcile(st, {}).store.parent.value) == Recorded(st.parent.value)
    ensures Reconcile(st, {}).writes == [ReportSuccess]
    ensures Reconcile(st, {}).store.vpa == st.vpa && Reconcile(st, {}).store.hpa == st.hpa
  {
  }

  /** The children's statuses as the external autoscalers may rewrite them between passes. */
  function WithStatuses(st: Store, vs: VpaStatus, hs: HpaStatus): (r: Store)
    requires st.vpa.Some? && st.hpa.Some?
  {
    st.(vpa := Some(st.vpa.value.(status := vs)), hpa := Some(st.hpa.value.(status := hs)))
  }

  /** Idempotence across passes: after a successful pass, and whatever the
      autoscalers then report, a second pass that keeps the decision writes
      to neither child. */
  lemma SecondPassWritesNothing(st: Store, vs: VpaStatus, hs: HpaStatus)
    requires Dereferenceable(st) && st.parent.Some?
    requires Reconcile(st, {}).result.Ok?
    requires var st2 := WithStatuses(Reconcile(st, {}).store, vs, hs);
             && Dereferenceable(st2)
             && Recorded(Reconcile(st2, {}).store.parent.value) == Recorded(Reconcile(st, {}).store.parent.value)
    ensures var st2 := WithStatuses(Reconcile(st, {}).store, vs, hs);
            && Reconcile(st2, {}).writes == [ReportSuccess]
            && Reconcile(st2, {}).store.vpa == st2.vpa && Reconcile(st2, {}).store.hpa == st2.hpa
  {
    var st2 := WithStatuses(Reconcile(st, {}).store, vs, hs);
    assert Converged(st2);
    assert Reconcile(st2, {}).result.Ok? by {
      FaultFreePassSucceeds(st2);
    }
    SameDecisionWritesNothing(st2);
  }

  /** Re-evaluating a recorded decision with the same signals gives it back:
      the VPA status and the HPA status are unchanged, the threshold is the
      same, and the live HPA floor is the one the first evaluation read. */
  lemma {:induction false} DecisionReplays(p: CranePodAutoscaler, q: CranePodAutoscaler,
                                           vpa: Vpa, vpa': Vpa, hpa: Hpa, hpa': Hpa)
    requires LastDecision(p).Some? && DecisionInputsDefined(false, p, vpa, hpa)
    requires LastDecision(q) == Some(ScalingDecision(false, p, vpa, hpa).Name())
    requires q.spec.behavior == p.spec.behavior
    requires vpa'.status == vpa.status && hpa'.status == hpa.status
    requires hpa'.spec.minReplicas.Some?
    requires LastDecision(p) != Some(RefVpa) ==> hpa'.spec.minReplicas == hpa.spec.minReplicas
    ensures DecisionInputsDefined(false, q, vpa', hpa')
    ensures ScalingDecision(false, q, vpa', hpa') == ScalingDecision(false, p, vpa, hpa)
  {
    var d := ScalingDecision(false, p, vpa, hpa);
    var worst := Utilization.BiggestContainerResourceUtilization(
                   vpa.status.recommendation.value.containerRecommendations).utilization;
    var pct := p.spec.behavior.vpaCapacityThresholdPercent;
    var previous := LastDecision(p);
    var min1 := if previous == Some(RefVpa) then 0 else hpa.spec.minReplicas.value;
    assert d == Decide(false, previous, worst, pct, hpa.status.desiredReplicas, min1);
    if d == HPA {
      DecisionSettles(previous, worst, pct, hpa.status.desiredReplicas, min1, hpa'.spec.minReplicas.value);
    } else {
      VpaOnlyWithinThreshold(false, previous, worst, pct, hpa.status.desiredReplicas, min1);
    }
  }

  /** Over a valid parent that already has conditions and both children,
      a pass without failures neither seeds, reports nor creates anything
      before the decision: it is exactly the decide-and-sync stage over the
      stored children. */
  lemma ExistingChildrenPass(st: Store)
    requires Dereferenceable(st) && Valid(st) && st.vpa.Some? && st.hpa.Some?
    requires st.parent.value.status.conditions != map[]
    ensures Reconcile(st, {}) == DecideAndSync(st, false, {})
  {
    assert FetchAndSync(st, {}) == FetchHpaAndSync(st, false, {});
  }

  /** Replaying a non-bootstrap pass is a fixed point: once a fault-free pass
      has run over existing children with a recorded decision, a second
      fault-free pass with unchanged autoscaler statuses decides the same,
      writes nothing but the status it already holds, and leaves the store
      exactly as it was. The live HPA must hold the parent's replica floor,
      as every HPA this controller has synced does. */
  lemma ReplayIsFixedPoint(st: Store)
    requires Dereferenceable(st) && st.parent.Some? && st.vpa.Some? && st.hpa.Some?
    requires TypeScalingDecision in st.parent.value.status.conditions
    requires Valid(st)
    requires st.parent.value.spec.hpa.minReplicas.Some?
    requires st.hpa.value.spec.minReplicas == st.parent.value.spec.hpa.minReplicas
    ensures Reconcile(st, {}).result.Ok?
    ensures Dereferenceable(Reconcile(st, {}).store)
    ensures Reconcile(Reconcile(st, {}).store, {}) == Outcome(Reconcile(st, {}).store, Ok, [ReportSuccess])
  {
    var p := st.parent.value;
    var out1 := Reconcile(st, {});
    ExistingChildrenPass(st);
    var st1 := out1.store;
    var p1 := st1.parent.value;
    var d := ScalingDecision(false, p, st.vpa.value, st.hpa.value);
    assert Recorded(p1) == Some(d);
    assert LastDecision(p1) == Some(d.Name());
    DecisionReplays(p, p1, st.vpa.value, st1.vpa.value, st.hpa.value, st1.hpa.value);
    assert Dereferenceable(st1);
    SyncedChildrenNeedNoWrite(st1, false);
    var out2 := Reconcile(st1, {});
    ExistingChildrenPass(st1);
    var conds := p1.status.conditions;
    SetStatusConditionUnchanged(conds, TypeScalingDecision, DecisionCondition(d));
    SetStatusConditionUnchanged(conds, TypeAvailable, SuccessCondition);
    assert out2.store.parent == st1.parent;
  }

  /** Right after the bootstrap pass the new VPA has no recommendation while
      a decision is recorded, so the next pass dereferences a nil
      recommendation unless the recommender has written one first: the store
      the first pass leaves behind is outside this model's precondition. */
  lemma FirstPassLeavesRecommendationUnset(st: Store)
    requires Dereferenceable(st) && st.parent.Some? && st.vpa.None? && st.hpa.None?
    requires Valid(st)
    ensures Reconcile(st, {}).store.vpa.value.status.recommendation.None?
    ensures !Dereferenceable(Reconcile(st, {}).store)
  {
    FirstPassCreatesBoth(st);
  }

  /** The hand-back from HPA to VPA over a whole pass: with HPA recorded, the
      live HPA at or below its floor and the worst utilization within the
      threshold, a fault-free pass records VPA, gives the VPA the parent's
      spec and pins the HPA's maximum to its floor. */
  lemma HandBackPass(st: Store)
    requires Dereferenceable(st) && Valid(st) && st.vpa.Some? && st.hpa.Some?
    requires LastDecision(st.parent.value) == Some(RefHpa)
    requires RecommendationReadable(st.vpa.value.status) && st.hpa.value.spec.minReplicas.Some?
    requires st.hpa.value.status.desiredReplicas <= st.hpa.value.spec.minReplicas.value
    requires !OverThreshold(WorstUtilization(st.vpa.value), st.parent.value.spec.behavior.vpaCapacityThresholdPercent)
    ensures var out := Reconcile(st, {});
            var p := st.parent.value;
            && out.result.Ok?
            && Recorded(out.store.parent.value) == Some(VPA)
            && out.store.vpa.value.spec == p.spec.vpa
            && out.store.hpa.value.spec == GenerateDisabledHpa(p).spec
            && out.store.hpa.value.spec.maxReplicas == EffectiveMinReplicas(p.spec.hpa)
  {
  }

  /** The switch from VPA back to HPA over a whole pass: with VPA recorded and
      the worst utilization above the threshold, a fault-free pass records
      HPA, gives the HPA the parent's spec and turns the VPA's updates off. */
  lemma ScaleOutPass(st: Store)
    requires Dereferenceable(st) && Valid(st) && st.vpa.Some? && st.hpa.Some?
    requires LastDecision(st.parent.value) == Some(RefVpa)
    requires RecommendationReadable(st.vpa.value.status)
    requires OverThreshold(WorstUtilization(st.vpa.value), st.parent.value.spec.behavior.vpaCapacityThresholdPercent)
    ensures var out := Reconcile(st, {});
            var p := st.parent.value;
            && out.result.Ok?
            && Recorded(out.store.parent.value) == Some(HPA)
            && out.store.hpa.value.spec == p.spec.hpa
            && out.store.vpa.value.spec == GenerateDisabledVpa(p).spec
  {
  }

  /** A parent that fails validation is admitted whatever its children hold:
      with both children present, a decision recorded and no recommendation
      yet, the pass still runs and rejects the parent without touching them. */
  lemma InvalidParentNeedsNoRecommendation(st: Store, faults: set<Step>)
    requires st.parent.Some? && st.vpa.Some? && st.hpa.Some? && GetParent !in faults
    requires st.parent.value.spec.vpa.targetRef.Some?
    requires st.parent.value.spec.vpa.targetRef.value != st.parent.value.spec.hpa.scaleTargetRef
    requires LastDecision(st.parent.value) == Some(RefHpa) && st.vpa.value.status.recommendation.None?
    ensures Dereferenceable(st)
    ensures Reconcile(st, faults).result.Err?
    ensures Reconcile(st, faults).store.vpa == st.vpa && Reconcile(st, faults).store.hpa == st.hpa
  {
  }

  /** A parent whose two references agree but whose VPA has no update policy
      is admitted by validation, yet its first pass would build the disabled
      VPA from a nil policy: it lies outside this model's precondition. */
  lemma AdmittedParentWithoutPolicyIsOutsideModel(st: Store)
    requires Valid(st) && st.parent.value.spec.vpa.updatePolicy.None?
    ensures Validate(st.parent.value).None?
    ensures !Dereferenceable(st)
  {
  }

  /** A parent whose HPA scale target reference is empty while its VPA
      targets a Deployment fails validation, so its pass returns the
      validation error instead of succeeding. */
  lemma EmptyScaleTargetIsRejected(st: Store)
    requires st.parent.Some?
    requires st.parent.value.spec.hpa.scaleTargetRef == CrossVersionObjectReference("", "", "")
    requires st.parent.value.spec.vpa.targetRef == Some(CrossVersionObjectReference("Deployment", "some-deployment", "apps/v1"))
    ensures Dereferenceable(st)
    ensures Reconcile(st, {}).result.Err? && Reconcile(st, {}).result.error.Invalid?
  {
  }
}

=== FILE: ratios.dfy ===
/** Exact rationals for utilization ratios.

    The controller divides two quantities in float32; this model keeps the
    quotient as an unreduced pair with a positive denominator and compares
    two quotients by cross-multiplication, so that `a < b` means
    `a.num / a.den < b.num / b.den` exactly. */
module Ratios {

  datatype Ratio = Ratio(num: int, den: int) {
    predicate Valid() { den > 0 }
  }

  /** The value 0, the evaluator's starting point. */
  const Zero: Ratio := Ratio(0, 1)

  predicate Lt(a: Ratio, b: Ratio)
    requires a.Valid() && b.Valid()
  {
    a.num * b.den < b.num * a.den
  }

  predicate Le(a: Ratio, b: Ratio)
    requires a.Valid() && b.Valid()
  {
    a.num * b.den <= b.num * a.den
  }

  lemma MulStrict(x: int, y: int, k: int)
    requires x < y && k > 0
    ensures x * k < y * k
  {
  }

  lemma MulWeak(x: int, y: int, k: int)
    requires x <= y && k > 0
    ensures x * k <= y * k
  {
  }

  /** Cancelling a positive factor from a strict inequality. */
  lemma CancelStrict(x: int, y: int, k: int)
    requires x * k < y * k && k > 0
    ensures x < y
  {
    if y <= x {
      MulWeak(y, x, k);
    }
  }

  lemma LtLeTrans(a: Ratio, b: Ratio, c: Ratio)
    requires a.Valid() && b.Valid() && c.Valid()
    requires Lt(a, b) && Le(b, c)
    ensures Lt(a, c)
  {
    MulStrict(a.num * b.den, b.num * a.den, c.den);
    MulWeak(b.num * c.den, c.num * b.den, a.den);
    assert a.num * c.den * b.den < c.num * a.den * b.den by {
      assert a.num * b.den * c.den == a.num * c.den * b.den;
      assert b.num * a.den * c.den == b.num * c.den * a.den;
      assert c.num * b.den * a.den == c.num * a.den * b.den;
    }
    CancelStrict(a.num * c.den, c.num * a.den, b.den);
  }

  lemma LeLtTrans(a: Ratio, b: Ratio, c: Ratio)
    requires a.Valid() && b.Valid() && c.Valid()
    requires Le(a, b) && Lt(b, c)
    ensures Lt(a, c)
  {
    MulWeak(a.num * b.den, b.num * a.den, c.den);
    MulStrict(b.num * c.den, c.num * b.den, a.den);
    assert a.num * c.den * b.den < c.num * a.den * b.den by {
      assert a.num * b.den * c.den == a.num * c.den * b.den;
      assert b.num * a.den * c.den == b.num * c.den * a.den;
      assert c.num * b.den * a.den == c.num * a.den * b.den;
    }
    CancelStrict(a.num * c.den, c.num * a.den, b.den);
  }

  lemma LtTrans(a: Ratio, b: Ratio, c: Ratio)
    requires a.Valid() && b.Valid() && c.Valid()
    requires Lt(a, b) && Lt(b, c)
    ensures Lt(a, c)
  {
    LtLeTrans(a, b, c);
  }
}

=== FILE: utilization.dfy ===
/** The worst-utilization evaluator: a left fold over the VPA's container
    recommendations that keeps the largest target/upperBound ratio seen so
    far, CPU checked before memory within a container, replacing the running
    maximum only on a strictly larger ratio. It starts from 0 and the
    sentinel name "NOCONTAINER". */
module Utilization {
  import opened Kube
  import opened Ratios

  const NoContainer: string := "NOCONTAINER"

  datatype Worst = Worst(containerName: string, utilization: Ratio)

  const Initial: Worst := Worst(NoContainer, Zero)

  /** Every upper bound is positive, so every ratio is defined. */
  predicate Readable(cs: seq<RecommendedContainerResources>)
  {
    forall i :: 0 <= i < |cs| ==> cs[i].upperBound.cpuMilli > 0 && cs[i].upperBound.memoryBytes > 0
  }

  function CpuUtilization(c: RecommendedContainerResources): (r: Ratio)
  {
    Ratio(c.target.cpuMilli, c.upperBound.cpuMilli)
  }

  function MemoryUtilization(c: RecommendedContainerResources): (r: Ratio)
  {
    Ratio(c.target.memoryBytes, c.upperBound.memoryBytes)
  }

  /** No ratio among the first `n` containers exceeds `u`. */
  ghost predicate BoundsUpTo(cs: seq<RecommendedContainerResources>, n: nat, u: Ratio)
    requires n <= |cs| && Readable(cs) && u.Valid()
  {
    forall i :: 0 <= i < n ==> Le(CpuUtilization(cs[i]), u) && Le(MemoryUtilization(cs[i]), u)
  }

  /** Container `k` is the first place, in CPU-then-memory order, where `w`'s ratio occurs:
      every earlier ratio is strictly smaller, and `w` holds the CPU ratio of `k`
      unless that one is strictly smaller too. */
  ghost predicate FirstAttainedAt(cs: seq<RecommendedContainerResources>, k: nat, w: Worst)
    requires k < |cs| && Readable(cs) && w.utilization.Valid()
  {
    && w.containerName == cs[k].containerName
    && (forall j :: 0 <= j < k ==>
          Lt(CpuUtilization(cs[j]), w.utilization) && Lt(MemoryUtilization(cs[j]), w.utilization))
    && (|| w.utilization == CpuUtilization(cs[k])
        || (Lt(CpuUtilization(cs[k]), w.utilization) && w.utilization == MemoryUtilization(cs[k])))
  }

  /** `w` is the worst utilization of the first `n` containers: it bounds
      every ratio, is not negative, and is either the first strictly positive
      maximum with its container, or (when no ratio is positive) the sentinel. */
  ghost predicate IsWorstUpTo(cs: seq<RecommendedContainerResources>, n: nat, w: Worst)
    requires n <= |cs| && Readable(cs)
  {
    && w.utilization.Valid()
    && BoundsUpTo(cs, n, w.utilization)
    && Le(Zero, w.utilization)
    && (if Lt(Zero, w.utilization)
        then exists k :: 0 <= k < n && FirstAttainedAt(cs, k, w)
        else w == Initial)
  }

  ghost predicate IsWorst(cs: seq<RecommendedContainerResources>, w: Worst)
    requires Readable(cs)
  {
    IsWorstUpTo(cs, |cs|, w)
  }

  /** One iteration of the loop body. */
  function Step(w: Worst, c: RecommendedContainerResources): (r: Worst)
    requires w.utilization.Valid() && c.upperBound.cpuMilli > 0 && c.upperBound.memoryBytes > 0
  {
    var afterCpu := if Lt(w.utilization, CpuUtilization(c)) then Worst(c.containerName, CpuUtilization(c)) else w;
    if Lt(afterCpu.utilization, MemoryUtilization(c)) then Worst(c.containerName, MemoryUtilization(c)) else afterCpu
  }

  lemma {:induction false} StepKeepsWorst(cs: seq<RecommendedContainerResources>, n: nat, w: Worst)
    requires n < |cs| && Readable(cs) && IsWorstUpTo(cs, n, w)
    ensures IsWorstUpTo(cs, n + 1, Step(w, cs[n]))
  {
    var c := cs[n];
    var cpu, mem, u := CpuUtilization(c), MemoryUtilization(c), w.utilization;
    var r := Step(w, c);
    if Lt(u, cpu) {
      if Lt(cpu, mem) {
        assert r == Worst(c.containerName, mem);
        LtTrans(u, cpu, mem);
        forall i | 0 <= i < n
          ensures Lt(CpuUtilization(cs[i]), mem) && Lt(MemoryUtilization(cs[i]), mem)
        {
          LeLtTrans(CpuUtilization(cs[i]), u, mem);
          LeLtTrans(MemoryUtilization(cs[i]), u, mem);
        }
        LeLtTrans(Zero, u, mem);
        assert FirstAttainedAt(cs, n, r);
      } else {
        assert r == Worst(c.containerName, cpu);
        forall i | 0 <= i < n
          ensures Lt(CpuUtilization(cs[i]), cpu) && Lt(MemoryUtilization(cs[i]), cpu)
        {
          LeLtTrans(CpuUtilization(cs[i]), u, cpu);
          LeLtTrans(MemoryUtilization(cs[i]), u, cpu);
        }
        LeLtTrans(Zero, u, cpu);
        assert FirstAttainedAt(cs, n, r);
      }
    } else if Lt(u, mem) {
      assert r == Worst(c.containerName, mem);
      LeLtTrans(cpu, u, mem);
      forall i | 0 <= i < n
        ensures Lt(CpuUtilization(cs[i]), mem) && Lt(MemoryUtilization(cs[i]), mem)
      {
        LeLtTrans(CpuUtilization(cs[i]), u, mem);
        LeLtTrans(MemoryUtilization(cs[i]), u, mem);
      }
      LeLtTrans(Zero, u, mem);
      assert FirstAttainedAt(cs, n, r);
    } else {
      assert r == w;
      if Lt(Zero, u) {
        var k :| 0 <= k < n && FirstAttainedAt(cs, k, w);
        assert 0 <= k < n + 1 && FirstAttainedAt(cs, k, r);
      }
    }
  }

  /** The loop from index `n` on, with `acc` the running result for the first `n` containers. */
  function Fold(cs: seq<RecommendedContainerResources>, n: nat, acc: Worst): (w: Worst)
    requires n <= |cs| && Readable(cs) && IsWorstUpTo(cs, n, acc)
    ensures IsWorst(cs, w)
    decreases |cs| - n
  {
    if n == |cs| then acc
    else
      StepKeepsWorst(cs, n, acc);
      Fold(cs, n + 1, Step(acc, cs[n]))
  }

  /** The worst utilization over all containers and both dimensions, with
      the first container attaining it. */
  function BiggestContainerResourceUtilization(cs: seq<RecommendedContainerResources>): (w: Worst)
    requires Readable(cs)
    ensures IsWorst(cs, w)
    ensures forall i :: 0 <= i < |cs| ==>
              Le(CpuUtilization(cs[i]), w.utilization) && Le(MemoryUtilization(cs[i]), w.utilization)
    ensures Le(Zero, w.utilization)
    ensures |cs| == 0 ==> w == Initial
  {
    Fold(cs, 0, Initial)
  }

  /** The characterisation pins the result down completely: two results
      meeting it are the same container name and the same ratio. */
  lemma {:induction false} WorstIsUnique(cs: seq<RecommendedContainerResources>, w1: Worst, w2: Worst)
    requires Readable(cs) && IsWorst(cs, w1) && IsWorst(cs, w2)
    ensures w1 == w2
  {
    if Lt(Zero, w1.utilization) && Lt(Zero, w2.utilization) {
      // Both are attained somewhere; an earlier attainment would be strictly
      // below the later one, and each bounds the other, so the places agree.
      var k1 :| 0 <= k1 < |cs| && FirstAttainedAt(cs, k1, w1);
      var k2 :| 0 <= k2 < |cs| && FirstAttainedAt(cs, k2, w2);
    }
  }

  /** The evaluator as a whole is the unique first strictly positive maximum. */
  lemma EvaluatorIsTheWorst(cs: seq<RecommendedContainerResources>, w: Worst)
    requires Readable(cs) && IsWorst(cs, w)
    ensures BiggestContainerResourceUtilization(cs) == w
  {
    WorstIsUnique(cs, BiggestContainerResourceUtilization(cs), w);
  }
}

=== FILE: validation.dfy ===
/** The one consistency rule checked on a CranePodAutoscaler: the VPA's
    target and the HPA's scale target name the same workload. Nothing else
    (replica floor, threshold range, metrics) is checked. */
module Validation {
  import opened Optional
  import opened Kube
  import opened CraneApi

  const TargetRefMismatch: string := "spec.VPA.targetRef does not match spec.HPA.scaleTargetRef"

  /** Field-by-field comparison of Name, Kind and APIVersion; dereferences the VPA target. */
  function EqualTargetRefs(vpa: VpaSpec, hpa: HpaSpec): (r: bool)
    requires vpa.targetRef.Some?
    ensures r <==> vpa.targetRef.value == hpa.scaleTargetRef
  {
    && vpa.targetRef.value.name == hpa.scaleTargetRef.name
    && vpa.targetRef.value.kind == hpa.scaleTargetRef.kind
    && vpa.targetRef.value.apiVersion == hpa.scaleTargetRef.apiVersion
  }

  /** A rendering of the two references for the error text; the exact
      layout of the diff printer is not modelled. */
  function RefDiff(a: CrossVersionObjectReference, b: CrossVersionObjectReference): (r: string)
  {
    "-" + a.kind + "/" + a.name + " (" + a.apiVersion + ") +" + b.kind + "/" + b.name + " (" + b.apiVersion + ")"
  }

  /** `None` is the nil error. */
  function Validate(p: CranePodAutoscaler): (err: Option<string>)
    requires p.spec.vpa.targetRef.Some?
    ensures err.None? <==> p.spec.vpa.targetRef.value == p.spec.hpa.scaleTargetRef
    ensures err.Some? ==> TargetRefMismatch <= err.value
  {
    if !EqualTargetRefs(p.spec.vpa, p.spec.hpa) then
      Some(TargetRefMismatch + ": " + RefDiff(p.spec.vpa.targetRef.value, p.spec.hpa.scaleTargetRef))
    else
      None
  }

  /** The verdict, error text included, depends on the two target references
      only: replica bounds, metrics, update policy and threshold never matter. */
  lemma ValidateReadsOnlyTargetRefs(p: CranePodAutoscaler, q: CranePodAutoscaler)
    requires p.spec.vpa.targetRef.Some? && q.spec.vpa.targetRef.Some?
    requires p.spec.vpa.targetRef == q.spec.vpa.targetRef
    requires p.spec.hpa.scaleTargetRef == q.spec.hpa.scaleTargetRef
    ensures Validate(p) == Validate(q)
  {
  }

  /** Two references to the same kind and API version but different names are rejected. */
  lemma DifferentNameIsRejected(p: CranePodAutoscaler)
    requires p.spec.vpa.targetRef.Some?
    requires p.spec.vpa.targetRef.value.kind == p.spec.hpa.scaleTargetRef.kind
    requires p.spec.vpa.targetRef.value.apiVersion == p.spec.hpa.scaleTargetRef.apiVersion
    requires p.spec.vpa.targetRef.value.name != p.spec.hpa.scaleTargetRef.name
    ensures Validate(p).Some?
    ensures TargetRefMismatch <= Validate(p).value
  {
  }

  /** Identical references are admitted whatever the rest of the spec says. */
  lemma IdenticalRefsAreAdmitted(p: CranePodAutoscaler, ref: CrossVersionObjectReference)
    requires p.spec.vpa.targetRef == Some(ref) && p.spec.hpa.scaleTargetRef == ref
    ensures Validate(p) == None
  {
  }
}
